=== FILE: README.md ===
# Prolific webhook deployer, modelled in Dafny

Prolific is a small deployment server for GitHub repositories. GitHub
calls its webhook endpoint for pull-request events. The endpoint
authenticates each delivery by its `X-Hub-Signature` header, which holds
the HMAC-SHA1 of the body. It then parses the payload and checks the
owner, repository and base branch against configured watch lists. An
event that passes every check is acknowledged with "Event recorded." and
handed on to processing.

Processing only acts on a pull request that was closed and merged:
- it posts a review comment announcing the deployment;
- it deploys;
- it posts a second comment with the result and the timings;
- it appends one audit record to the `GitHub` category of the audit log.

A deployment runs in the checkout `root/branch/repository`:
- It first checks that the root path and the repository path exist, and
  that `su` and `make` resolve and exist.
- It then runs four commands. The first three go through `su USER -c`,
  where USER is the configured user (by default `root`). Each command
  string is passed wrapped in single quotes: `'git checkout BRANCH'`,
  `'git pull'` and `'make'`. The fourth runs `make deploy`.
- It keeps one log per command it attempted, and stops at the first
  command that fails.

A second endpoint returns the audit log to a client that presents
`Authorization: token <Log_Access_Token>`. The install script
`scripts/main.go` dispatches `build` or `deploy`. On Linux it rewrites a
systemd unit template so that the unit points at the compiled binary.

The model has one module per source file. Every operating-system,
network and crypto call is a parameter:
- `Exec.Host` stands for `exec.LookPath`, `os.Getwd`, `os.Stat` and running
  a process.
- `Review.Net` stands for JSON marshalling, request construction, sending
  with reading the reply, and decoding the reply into a map.
- The HMAC-SHA1 function and the payload parser are function parameters
  of the webhook handler.
- Configuration is a map from (section, key) to a value.
- The audit log directory is a `LogStore` object. It holds a map from
  file path to what a read of that path yields: parsed records, or
  something unreadable.

The handlers are methods that update a `Response` object through
`SetError`, as the code does. Each is proved equal to a pure decision
function (`WebHook.Decide`, `LogEndpoint.LogReply`,
`Deployer.DeploySpec`, `WebHook.AuditRecord`), and the properties are
proved about those functions. The audit record keeps the GitHub replies
as the code leaves them in its one shared map; the list the code
evidently intends is defined beside it (see Findings). The deployment's early-stopping command
sequence is proved against `Deployer.RunSteps`. The in-place template
rewrite works on an `array` and is proved against `Installer.Rewritten`.

Modules:
- `Wrappers`: `Option` and `Result`.
- `Text`: Go's `strings.Split`/`Join`/`HasPrefix`, ASCII case mapping,
  `%d`, `hex.EncodeToString` and `filepath.Join`.
- `Config`.
- `Exec`: `features/common/executable.go`.
- `AuditLog`: `features/common/log.go`.
- `Handler`: `features/common/handler.go`.
- `Comments`: `features/web-hook/create_comment.go`.
- `Watches`: `features/web-hook/watches.go`.
- `Review`: `features/web-hook/create_github_review.go`.
- `Payload`: the webhook payload fields.
- `Deployer`: `features/web-hook/deploy.go`.
- `WebHook`: `features/web-hook/github.go`.
- `LogEndpoint`: `features/log/github.go`.
- `Installer`: `scripts/main.go`.

## Model

| member | source | states |
|---|---|---|
| `Text.Split` | features/web-hook/watches.go:15 | `strings.Split` on one character yields at least one piece, and no piece contains the separator |
| `Text.SplitJoin` | features/web-hook/watches.go:15 | splitting the `;`/space/newline join of separator-free pieces gives the pieces back |
| `Text.JoinSplit` | features/log/github.go:22 | joining the pieces of a split with the separator gives the original string back |
| `Text.HexRoundTrip` | features/web-hook/github.go:179 | decoding the lower-case hex of a digest gives the digest back |
| `Text.HexCanonical` | features/web-hook/github.go:179 | a string that decodes as lower-case hex is exactly the encoding of what it decodes to |
| `Text.IntToDecimalInjective` | features/web-hook/create_github_review.go:20-24 | distinct pull-request numbers render as distinct `%d` strings |
| `Text.PathJoinFour` | scripts/main.go:188 | `filepath.Join` of four non-empty elements puts one `/` between each |
| `Exec.Exists` | features/common/executable.go:14-20 | true exactly when looking up the name succeeds with a non-empty path |
| `Exec.NewExecutable` | features/common/executable.go:36-49 | an empty directory with a failing `Getwd` returns that error; otherwise it fails exactly when the lookup fails; on success the name, the resolved path, and the given directory or the current one |
| `Exec.Argv` | features/common/executable.go:25 | the argument vector is the resolved path followed by the arguments |
| `Exec.Run` | features/common/executable.go:22-34 | the process run is the resolved path with `Argv` in the working directory, and its output is returned on failure too |
| `Exec.CreatedExists` | features/common/executable.go:44-48 | an executable `NewExecutable` built exists exactly when its resolved path is non-empty |
| `AuditLog.LogFilePath` | features/common/log.go:37 | a category's file lies under `logs/` |
| `AuditLog.LogFilePathInjective` | features/common/log.go:63 | distinct categories are stored in distinct files |
| `AuditLog.ReadFrom` | features/common/log.go:44-59 | an absent or unparseable file reads as no records; otherwise the stored records |
| `AuditLog.WriteThenRead` | features/common/log.go:62-70 | after a write the category reads as its previous records followed by the new one |
| `AuditLog.WriteLeavesOthers` | features/common/log.go:63-70 | a write to one category leaves every other category's file and records unchanged |
| `AuditLog.WriteReplacesDamaged` | features/common/log.go:53-65 | a write to a category whose file is unparseable leaves it holding only the new record |
| `AuditLog.WriteAllThenRead` | features/common/log.go:62-73 | records written one after another read back after the earlier ones, in write order |
| `AuditLog.EmptyStoreReadsBack` | features/common/log.go:36-73 | on an empty store, N writes read back as exactly those N records |
| `AuditLog.LogStore.ReadLogs` | features/common/log.go:36-60 | creates the log directory when it is missing, changes no file, and returns `ReadFrom` of the category |
| `AuditLog.LogStore.WriteLog` | features/common/log.go:62-74 | the directory exists afterwards. A completed rewrite puts the old records plus the new one in the category's file. A `WriteFile` that could not open the file changes nothing. One that failed after its truncating open leaves the file damaged |
| `AuditLog.TruncatedWriteLosesHistory` | features/common/log.go:53-74 | after a rewrite that failed past the truncation, the category reads as empty, and the next completed write leaves only its own record |
| `Handler.CreateError` | features/common/handler.go:28-30 | the error holds exactly the given code and reason |
| `Handler.Response.Create` | features/common/handler.go:32-34 | a new response is successful, with no error, message or data |
| `Handler.Response.SetError` | features/common/handler.go:22-26 | marks the response failed with the given error, keeps message and data, and returns the same object |
| `Handler.SendWithStatus` | features/common/handler.go:40-47 | the reply carries the chosen status, `application/json` and the body |
| `Handler.Send` | features/common/handler.go:36-38 | the reply status is always 200 |
| `Handler.Failed` | features/common/handler.go:22-30 | a failure body is unsuccessful, carries only the error, and has no message or data |
| `Handler.NotFoundHandler` | features/common/handler.go:49-60 | with `Handle_Not_Found` at its default "true": 404 with error 404 "Not Found"; otherwise a bare 200 success |
| `Comments.CreateComment` | features/web-hook/create_comment.go:8-13 | the comment starts with the bot header and is header, text and footer in length |
| `Comments.CommentRoundTrip` | features/web-hook/create_comment.go:11-12 | the caller's text sits verbatim between the header and the footer, and the footer ends the comment |
| `Comments.CreateCommentInjective` | features/web-hook/create_comment.go:11-12 | for one server, distinct texts give distinct comments |
| `Watches.IsWatched` | features/web-hook/watches.go:14-22 | the scan returns true exactly when the element equals one of the `;`-separated pieces |
| `Watches.SemicolonNeverWatched` | features/web-hook/watches.go:15 | an element containing `;` is never watched |
| `Watches.EmptyListWatchesEmptyString` | features/web-hook/watches.go:15 | with an empty or missing list, the empty string and only it is watched |
| `Watches.WatchedIsListMembership` | features/web-hook/watches.go:15-21 | a list written as separator-free names joined by `;` watches exactly those names |
| `Watches.OrderAndRepeatsIrrelevant` | features/web-hook/watches.go:16-21 | two lists naming the same set of names watch the same elements |
| `LogEndpoint.AcceptedHeaderShape` | features/log/github.go:14-44 | an accepted header is a space-free scheme that lower-cases to "token", one space, and the configured token |
| `LogEndpoint.WellFormedHeaderAccepted` | features/log/github.go:22-44 | conversely every such header is accepted |
| `LogEndpoint.RefusalsAreUnauthorized` | features/log/github.go:15-47 | every refusal is a 401 with error code 401 and no data, and only an accepted request gets 200 with the stored records |
| `LogEndpoint.RefusalReasonsInOrder` | features/log/github.go:14-44 | the first failing check names the refusal: empty header "No authorization provided.", not two parts "Authorization format invalid.", scheme not "token" "Authorization type invalid.", wrong token "Authorization token invalid.", each with code 401, and the reply carries that error |
| `LogEndpoint.UnsetTokenAcceptsEmptyToken` | features/log/github.go:38-39 | with `Log_Access_Token` unset, the header "token " with an empty token is accepted |
| `LogEndpoint.Github` | features/log/github.go:10-49 | the reply is `LogReply` of the header and the GitHub records stored before the call, and no file changes |
| `Review.ReviewUrl` | features/web-hook/create_github_review.go:20-24 | the URL starts with `https://api.github.com/repos/` |
| `Review.ReviewUrlInjective` | features/web-hook/create_github_review.go:20-24 | for one repository, distinct pull-request numbers give distinct URLs |
| `Review.ReviewPayloadFor` | features/web-hook/create_github_review.go:27-30 | the review event is "COMMENT", and its body is the templated comment, which gives the text back |
| `Review.BuildReviewShape` | features/web-hook/create_github_review.go:32-46 | a marshal error is returned as is; a request exists exactly when marshalling and URL parsing succeed; it is a POST to the review URL with the marshalled body, the `Accept` and `Authorization: Token` headers, and a 15-second timeout |
| `Review.CreateGitHubReview` | features/web-hook/create_github_review.go:14-51 | a request that cannot be built is not sent, and its error is the result; a built request is sent and the result is what sending it returns |
| `Review.Recorded` | features/web-hook/github.go:74-89 | a response is recorded exactly from a delivered reply whose body was read and decoded, and it is what the decode produced; any other delivery records nothing |
| `Deployer.RepoPathLayout` | features/web-hook/deploy.go:29 | for non-empty parts the repository path is `root/branch/repository` |
| `Deployer.Execute` | features/web-hook/deploy.go:103-117 | the log names the resolved path, records the path and arguments joined by single spaces and the working directory, and keeps the output; its error is empty when the run succeeded, and otherwise it is the run's error message |
| `Deployer.ExecuteErrorEmptyIff` | features/web-hook/deploy.go:103-117 | for a run whose failure message is non-empty, as Go's are, the log's error is empty exactly when the run succeeded |
| `Deployer.ExecuteArgsRecoverable` | features/web-hook/deploy.go:111 | when no argument holds a space, the recorded argument string splits back into the argument vector |
| `Deployer.RunSteps` | features/web-hook/deploy.go:58-90 | never more logs than commands, and a failed run has logged at least one command |
| `Deployer.RunStepsLogs` | features/web-hook/deploy.go:59-87 | the logs are those of the first commands, in command order |
| `Deployer.RunStepsFailurePoint` | features/web-hook/deploy.go:59-87 | every logged command but the last succeeded, and a failed run's error is the last logged command's |
| `Deployer.RunStepsCompletes` | features/web-hook/deploy.go:58-90 | no error exactly when every command ran and succeeded |
| `Deployer.RunStepsShape` | features/web-hook/deploy.go:58-90 | the three facts above together |
| `Deployer.StopsAtFirstFailure` | features/web-hook/deploy.go:59-87 | if command k is the first to fail, exactly k+1 logs come back, the last is command k's, and the error is its error |
| `Deployer.RunsAllWithoutFailure` | features/web-hook/deploy.go:82-90 | without a failing command, every command is logged and no error is returned |
| `Deployer.MissingDependencyIsFirst` | features/web-hook/deploy.go:94-101 | "dependency NAME not available" names the first non-existent executable in argument order; no error exactly when all exist |
| `Deployer.CheckDependencies` | features/web-hook/deploy.go:94-101 | the loop returns the first missing dependency's error, or none |
| `Deployer.Plan` | features/web-hook/deploy.go:56-82 | the deployment has exactly four commands |
| `Deployer.SuCommandsQuoted` | features/web-hook/deploy.go:56-74 | as written: the first three steps run `su` with the user, `-c`, and the command `git checkout BRANCH`, `git pull` or `make` inside a pair of single quotes |
| `Deployer.UnquotedPlanStripsQuotes` | features/web-hook/deploy.go:56-82 | corrected: the same executables, user and `-c`, with each `su` command handed over without its surrounding quotes, and `make deploy` unchanged |
| `Deployer.TwoDependencies` | features/web-hook/deploy.go:94-101 | checking `su` then `make` gives "dependency NAME not available" for the first one missing, or no error |
| `Deployer.PrepareOutcome` | features/web-hook/deploy.go:20-56 | the prechecks fail in the order root path, repository path, `su`, `make`, dependencies, each with its own error, the last being "dependency su not available" or "dependency make not available"; the plan exists exactly when all pass, and it is the four commands for the resolved executables and the user |
| `Deployer.PrecheckFailureHasNoLogs` | features/web-hook/deploy.go:18-54 | a precheck failure returns its error with an empty log list |
| `Deployer.DeployFailsAtStep` | features/web-hook/deploy.go:58-87 | when command k is the first to fail, `deploy` returns k+1 logs, the last is that command's, and it carries the returned error |
| `Deployer.DeploySuccess` | features/web-hook/deploy.go:82-90 | a deployment without error ran all four commands, each logged with an empty error |
| `Deployer.RunNextStep` | features/web-hook/deploy.go:59-87 | running the next command either ends the run with its log and error or extends the logged prefix by its log |
| `Deployer.Deploy` | features/web-hook/deploy.go:14-92 | `deploy` returns exactly `DeploySpec`: the precheck error with no logs, or the run of the four commands |
| `Deployer.RunCommands` | features/web-hook/deploy.go:56-90 | the four commands with append-and-return-early give exactly `RunSteps` of the plan |
| `WebHook.SignatureMatchIff` | features/web-hook/github.go:176-181 | the header matches exactly when it is "sha1=" followed by lower-case hex that decodes to the HMAC-SHA1 digest of the body |
| `WebHook.MissingSignatureStopsFirst` | features/web-hook/github.go:160-166 | without a signature the answer is 400 "No signature provided.", whatever the body, secret or parser |
| `WebHook.BadSignatureNeverParsed` | features/web-hook/github.go:176-197 | a mismatching signature is refused with 400 "Invalid signature provided.", and the parser has no influence |
| `WebHook.WatchChecksInOrder` | features/web-hook/github.go:199-222 | for an authentic parsed event the owner, repository and branch lists are checked in that order; the first miss answers 200 with code 1001, 1002 or 1003 and names the value |
| `WebHook.BodyFailuresInOrder` | features/web-hook/github.go:168-197 | with a signature present, an unreadable body is answered 500 "Failed to read payload." before the signature is checked, and an authentic body that does not parse is answered 500 "Failed to parse payload." before the watch lists |
| `WebHook.StatusClasses` | features/web-hook/github.go:156-227 | 400 exactly for a missing or mismatching signature; 500 exactly for an unreadable or unparseable body; every other answer 200; always JSON |
| `WebHook.DispatchIffActionable` | features/web-hook/github.go:199-227 | processing starts exactly when every check passes, with the parsed payload and a 200 "Event recorded." success; every other answer is a failure with an error |
| `WebHook.Github` | features/web-hook/github.go:156-229 | the handler's reply and hand-off are exactly `Decide` |
| `WebHook.HiddenReasonNotRevealed` | features/web-hook/github.go:116-124 | with reasons hidden, the failure notice is the same whatever the error was |
| `WebHook.ShownReasonRecoverable` | features/web-hook/github.go:119-124 | with reasons shown, the notice holds "Reason: `ERROR`" right after its head, and distinct errors give distinct notices |
| `WebHook.ResponsesAsWritten` | features/web-hook/github.go:69-148 | as written: a lone decoded reply is kept as it is; when both notices are answered both entries are the one shared map, with the keys of either reply and the second reply's values winning |
| `WebHook.RecordedResponses` | features/web-hook/github.go:69-148 | corrected: at most two responses, the start notice's decoded reply first, then the result notice's, each only when present |
| `WebHook.AsWrittenMatchesIntended` | features/web-hook/github.go:69-148 | the record as written equals the intended one exactly when at most one review was answered or both replies are equal |
| `WebHook.AuditRecordOnlyOnMerge` | features/web-hook/github.go:67-152 | a record is produced exactly when the upper-cased action is "CLOSED" and the pull request is merged |
| `WebHook.AuditRecordDescribesRun` | features/web-hook/github.go:58-129 | the record names the payload's owner, repository and branch; it is successful exactly when `deploy` returned no error; it carries the error only on failure, exactly the returned logs, at most two responses, and the clock's times |
| `WebHook.ResponsesComeFromDecodedReviews` | features/web-hook/github.go:69-148 | the record holds one entry per decoded reply to the start and result notices; a lone reply is kept as it is, and when both are answered both entries are the shared map holding the keys of either reply, the second reply's values winning |
| `WebHook.StartCommentNamesPullRequest` | features/web-hook/github.go:71-73 | for one owner, repository and branch, start notices for different pull-request numbers differ |
| `WebHook.ResultCommentShape` | features/web-hook/github.go:104-128 | both result notices end with the timing table; a deployment without error gives a notice starting "**SUCCESS**: [", a failed one a notice starting "**ERROR**: [", and no notice starts with both |
| `WebHook.ResultNotice` | features/web-hook/github.go:104-131 | the second notice is the success notice, or the failure notice with the reason shown only when `Hide_Error_Reason` is not "true" |
| `WebHook.ReviewResponse` | features/web-hook/github.go:74-89 | one review round trip records the decoded reply, or nothing when sending, reading or decoding fails |
| `WebHook.DeployAndReport` | features/web-hook/github.go:53-148 | the record built step by step for a merged pull request, with the responses read from the shared map, is `AuditRecord` |
| `WebHook.ProcessGitHub` | features/web-hook/github.go:51-154 | a merged pull request's record, with the responses as the shared map leaves them, is appended to the GitHub log as `AuditLog.AfterWrite` gives for how the host's rewrite ended; any other event changes nothing |
| `WebHook.AppendResponsesAsWritten` | features/web-hook/github.go:69-148 | as written: both responses alias one decoded map, so two answers are recorded as their merge, twice |
| `WebHook.ShareDecodedMap` | features/web-hook/github.go:69-148 | as written: each element of the response slice is the one shared map, holding every answer decoded so far |
| `WebHook.ReadEntries` | features/web-hook/github.go:150 | writing the log reads each element of the slice as the map it refers to is at that moment |
| `WebHook.FirstResponseLost` | features/web-hook/github.go:82-145 | for answers `{"id":"1"}` then `{"id":"2"}` the code records `{"id":"2"}` twice, where the intended record is both answers |
| `Installer.MainOutcomes` | scripts/main.go:18-68 | 1001 exactly without a command; build or deploy for a command that lower-cases to their names; 1002 "Command X is unknown." for anything else; 1003 exactly for deploy off Linux |
| `Installer.MainIgnoresCase` | scripts/main.go:23-32 | spellings of a command that lower-case alike lead to the same outcome |
| `Installer.BinPathLayout` | scripts/main.go:187-189 | the binary is `workDir/bin/release/prolific_release` |
| `Installer.ReplacementKeepsPrefix` | scripts/main.go:95-115 | every replacement line keeps the prefix it replaced |
| `Installer.Rewritten` | scripts/main.go:94-116 | the rewrite keeps the number of lines |
| `Installer.PrefixClash` | scripts/main.go:95-115 | two prefixes that differ at a shared position cannot both begin one line |
| `Installer.PrefixesExclusive` | scripts/main.go:95-115 | no line starts with two of the seven prefixes, so `ExecStart=` never matches an `ExecStartPre=` line |
| `Installer.RewriteLineUnmatched` | scripts/main.go:94-116 | a line starting with none of the prefixes is unchanged |
| `Installer.RewriteLineMatched` | scripts/main.go:95-115 | a line starting with a prefix becomes that prefix plus its fixed value |
| `Installer.RewriteLineIdempotent` | scripts/main.go:94-116 | rewriting a rewritten line changes nothing |
| `Installer.RewrittenIdempotent` | scripts/main.go:94-116 | rewriting the whole template twice is the same as once |
| `Installer.RewriteSlot` | scripts/main.go:95-115 | the seven tests rewrite the slot to the rewritten line and touch no other slot |
| `Installer.RewriteTemplate` | scripts/main.go:94-116 | after the loop the array holds the rewritten template, line for line |
| `Installer.ServiceContentReadsBack` | scripts/main.go:133 | lines without newlines, joined by "\n", split back into the same lines |
| `Installer.RewriteLineKeepsLineBreaksOut` | scripts/main.go:94-116 | the rewrite introduces no line break when the working directory and binary path contain none |
| `Installer.WrittenOverKeepsStaleTail` | scripts/main.go:123-133 | as written: the file opened without `O_TRUNC` starts with the new content, is as long as the longer of old file and new content, and equals the new content exactly when the old file was no longer |
| `Installer.StaleLineSurvives` | scripts/main.go:123-133 | as written: writing a one-line unit over a two-line one leaves a file that reads back as both lines |
| `Installer.InstalledUnitReadsBack` | scripts/main.go:118-133 | corrected: the unit goes to `/etc/systemd/system/prolific.service`, and content written to a truncated file reads back as the rewritten template, line for line |
| `Installer.ServiceFilePathIsRelative` | scripts/main.go:118 | as written the unit path is the relative `etc/systemd/system/prolific.service` |
| `Installer.ServiceFilePathIsAbsolute` | scripts/main.go:118 | the corrected unit path is the absolute `/etc/systemd/system/prolific.service` |

## Left out

- Serving HTTP is not modelled: routing, reading headers, and encoding the reply as JSON on the wire. A handler sees the header value and the body, or the error from reading it. It produces the status, the `Content-Type` and the response body as a value.
- The `go processGitHub(...)` goroutine is not modelled. Processing runs sequentially through `WebHook.ProcessGitHub`, called with the handed-off payload. Concurrent appends to the log file are not modelled.
- HMAC-SHA1, `json.Marshal`/`json.Unmarshal`, `http.NewRequest`'s URL parsing, `http.Client.Do` and `ioutil.ReadAll` are library calls. They are parameters, not code.
- A decoded GitHub reply is a map from keys to opaque strings, not a JSON value.
- A failed `json.Unmarshal` records nothing in the model. In Go it may already have put part of the reply into the shared map, which the next record then carries.
- `time.Now` and RFC1123 formatting are not modelled. The start time, end time and elapsed time are opaque strings in `WebHook.Clock`.
- `strings.ToUpper` and `strings.ToLower` are modelled on ASCII letters only. Unicode case mapping is not modelled.
- `filepath.Join` is modelled as the non-empty elements joined by `/`. The final `Clean` is not modelled: `..`, repeated or trailing slashes are kept.
- `os.Stat` is a yes/no answer. The code's `os.IsNotExist(err) || err != nil` followed by `err != nil` reduces to "the stat failed".
- A failed `MarshalIndent` in `WriteLog` is not modelled. How `WriteFile` ended is the `AuditLog.WriteOutcome` parameter: written, not opened, or truncated and then failed. A partly written file is modelled as damaged, whatever bytes it holds. File modes are not modelled.
- `AuditLog.LogStore.ReadLogs`: states that the directory exists afterwards without modelling that `MkdirAll` can fail. A failed `MkdirAll` only affects reads through a file that is then absent anyway.
- The configuration library behind `config/config.go` is a map from (section, key) to a value. Its file format and lookup rules are not part of this model.
- The `debug` logging calls are not modelled. `debug/release.go` and `application/application.go` (server start-up and shutdown) are not part of this model, nor are the three `route.go` files (route registration).
- `scripts/main.go` I/O is not modelled. This covers `build` (running `go build`, exits 2002 and 2003) and reading the template file (exits 3001, 3002 and 3101). It also covers opening, writing and syncing the unit file (exits 3003–3006 and 3102), `systemctl enable` and `restart` (exits 3007–3009), and `getWorkDir`'s exit 2001. The working directory is a parameter. `bufio.ScanLines` dropping a trailing `\r` is not modelled.
- `Deployer.Plan`: states only that there are four commands. `Deployer.SuCommandsQuoted` states the three `su` steps' arguments. `Deployer.DeployFailsAtStep` and `Deployer.DeploySuccess` state what running the steps yields.
- What a shell makes of a command string is not modelled. The fourth Findings row rests on POSIX quoting: a single-quoted string is one word.
- `WebHook.HiddenReasonNotRevealed`: states that a hidden-reason notice does not depend on the error, rather than that it lacks the text "Reason:". The branch, owner and repository names in the notice may themselves contain that text.
- `Text.HexCanonical` reads back only lower-case hex. It serves the signature lemma, where the header must equal the lower-case encoding exactly. Go's `hex.DecodeString` is not part of this model.
- `Installer.InstalledUnitReadsBack`: describes the corrected install, not the code as written. It uses the absolute unit path, where the code joins a relative one (second Findings row). It states what the new content reads back as, which is the file only when the file is truncated; the code opens it without `O_TRUNC` (third Findings row, `Installer.WrittenOverKeepsStaleTail`).
- An empty watch list is described as watching nothing. The code splits the empty string into one empty piece, so it watches the empty owner, repository or branch. The model follows the code (`Watches.EmptyListWatchesEmptyString`).

## Findings

| source | as written | input that shows it | evidently intended | confidence | as-written member | corrected member |
|---|---|---|---|---|---|---|
| features/web-hook/github.go:69-145 | One map variable receives both `json.Unmarshal` calls. Unmarshal into a non-nil map keeps the entries already there. Both appended slice elements are that same map. | Both reviews are answered, the first decoding to `{"id":"1"}` and the second to `{"id":"2"}`. The record holds `[{"id":"2"}, {"id":"2"}]`. | The record holds each answer once, in order: `[{"id":"1"}, {"id":"2"}]`. | medium, not executed | `WebHook.ResponsesAsWritten`, `WebHook.AppendResponsesAsWritten` and `WebHook.ProcessGitHub`, with `WebHook.FirstResponseLost` | `WebHook.RecordedResponses` with `WebHook.AsWrittenMatchesIntended` |
| scripts/main.go:118 | `filepath.Join("etc", "systemd", "system", "prolific.service")` is a relative path. The unit is written under the working directory. | Any run of `deploy` on Linux writes `etc/systemd/system/prolific.service` relative to the current directory, not `/etc/...` where `systemctl enable prolific.service` looks. | The unit file is `/etc/systemd/system/prolific.service`. | medium, not executed | `Installer.ServiceFilePathIsRelative` | `Installer.ServiceFilePathIsAbsolute` |
| scripts/main.go:123 | The unit file is opened with `os.O_CREATE \| os.O_RDWR` and no `os.O_TRUNC`. Writing starts at offset 0, so an older, longer file keeps its tail. | An installed unit `[Unit]\nUser=root` is reinstalled from a template whose rewrite is the single line `[Unit]`. The file then reads `[Unit]\nUser=root`, two lines. | The file holds exactly the new content, one line. | medium, not executed | `Installer.WrittenOverKeepsStaleTail` with `Installer.StaleLineSurvives` | `Installer.InstalledUnitReadsBack` |
| features/web-hook/deploy.go:58 | Each `su -c` command string is built as `'git checkout BRANCH'`, `'git pull'` or `'make'`, with the single quotes inside the string. `exec` passes it to `su` unchanged, and `su` hands it to a shell. The shell reads a single-quoted string as one word, so it looks for a program named `git checkout BRANCH`. | Any deployment that reaches the first command: `su root -c "'git checkout main'"` asks the shell for a command called `git checkout main`. | `su` receives `git checkout BRANCH`, `git pull` and `make` without the quotes. | medium, not executed | `Deployer.Plan` with `Deployer.SuCommandsQuoted` | `Deployer.UnquotedPlan` with `Deployer.UnquotedPlanStripsQuotes` |

=== FILE: audit_log.dfy ===
/**
  The audit log (features/common/log.go): one file per category under
  `logs/`, holding the JSON array of every run record of that category.
  The file system is a map from path to what a read of that path yields.
 */
module AuditLog {
  import opened Exec
  import Text

  /** A decoded GitHub API response body: a JSON object whose values are kept as opaque strings. */
  type ApiObject = map<string, string>

  datatype LogData = LogData(
    owner: string,
    repository: string,
    branch: string,
    gitHubApiResponses: seq<ApiObject>,
    executableLogs: seq<ExecutableLog>)

  /** One run record. `error` is empty when the run succeeded. */
  datatype Log = Log(
    success: bool,
    startedAt: string,
    endedAt: string,
    timeElapsed: string,
    error: string,
    data: LogData)

  const GitHubLogType: string := "GitHub"
  const LogDirPath: string := "logs"

  /** The file holding category `category`: `logs/<category>.json`. */
  function LogFilePath(category: string): (path: string)
    ensures Text.HasPrefix(path, LogDirPath + "/")
  {
    LogDirPath + "/" + category + ".json"
  }

  /** Distinct categories live in distinct files. */
  lemma LogFilePathInjective(a: string, b: string)
    requires LogFilePath(a) == LogFilePath(b)
    ensures a == b
  {
    var pa, pb := LogFilePath(a), LogFilePath(b);
    assert |a| == |b|;
    assert a == pa[5..5 + |a|];
    assert b == pb[5..5 + |b|];
  }

  /** What reading a path yields: a parsed array of records, or something unreadable or unparseable. */
  datatype FileState = Records(logs: seq<Log>) | Damaged

  /** `ReadLogs`: the records of `category`, or none when the file is absent, unreadable or unparseable. */
  function ReadFrom(files: map<string, FileState>, category: string): (logs: seq<Log>)
    ensures LogFilePath(category) !in files ==> logs == []
    ensures LogFilePath(category) in files && files[LogFilePath(category)].Damaged? ==> logs == []
    ensures LogFilePath(category) in files && files[LogFilePath(category)].Records? ==>
              logs == files[LogFilePath(category)].logs
  {
    var path := LogFilePath(category);
    if path in files && files[path].Records? then files[path].logs else []
  }

  /** The files after `WriteLog(category, log)` has rewritten the category's file. */
  function WriteTo(files: map<string, FileState>, category: string, log: Log): map<string, FileState> {
    files[LogFilePath(category) := Records(ReadFrom(files, category) + [log])]
  }

  /**
    How `ioutil.WriteFile` ended: the file was rewritten; it could not be
    opened, so nothing changed; or it was opened, and so truncated, but the
    write then failed, leaving an empty or partial file.
   */
  datatype WriteOutcome = Written | NotOpened | Truncated

  /** The files after `WriteLog(category, log)` whose `WriteFile` ended with `outcome`. */
  function AfterWrite(files: map<string, FileState>, category: string, log: Log, outcome: WriteOutcome): map<string, FileState> {
    match outcome
    case Written => WriteTo(files, category, log)
    case NotOpened => files
    case Truncated => files[LogFilePath(category) := Damaged]
  }

  /**
    A rewrite that fails after truncating the file loses the whole history:
    the category then reads as empty, and the next successful write leaves
    only its own record.
   */
  lemma TruncatedWriteLosesHistory(files: map<string, FileState>, category: string, log: Log, next: Log)
    ensures ReadFrom(AfterWrite(files, category, log, Truncated), category) == []
    ensures ReadFrom(AfterWrite(AfterWrite(files, category, log, Truncated), category, next, Written), category) == [next]
  {
    var damaged := AfterWrite(files, category, log, Truncated);
    WriteThenRead(damaged, category, next);
  }

  /** The files after a run of `WriteLog(category, ·)` calls, one per record, in order. */
  function WriteAll(files: map<string, FileState>, category: string, logs: seq<Log>): map<string, FileState>
    decreases |logs|
  {
    if |logs| == 0 then files else WriteAll(WriteTo(files, category, logs[0]), category, logs[1..])
  }

  /** After a write, the category reads back as what it read before, followed by the new record. */
  lemma WriteThenRead(files: map<string, FileState>, category: string, log: Log)
    ensures ReadFrom(WriteTo(files, category, log), category) == ReadFrom(files, category) + [log]
  {
  }

  /** A write to one category leaves every other category as it was. */
  lemma WriteLeavesOthers(files: map<string, FileState>, category: string, other: string, log: Log)
    requires other != category
    ensures ReadFrom(WriteTo(files, category, log), other) == ReadFrom(files, other)
    ensures LogFilePath(other) in files <==> LogFilePath(other) in WriteTo(files, category, log)
    ensures LogFilePath(other) in files ==> WriteTo(files, category, log)[LogFilePath(other)] == files[LogFilePath(other)]
  {
    if LogFilePath(other) == LogFilePath(category) {
      LogFilePathInjective(other, category);
    }
  }

  /** A damaged file is replaced by one holding just the new record. */
  lemma WriteReplacesDamaged(files: map<string, FileState>, category: string, log: Log)
    requires LogFilePath(category) in files && files[LogFilePath(category)] == Damaged
    ensures WriteTo(files, category, log)[LogFilePath(category)] == Records([log])
  {
  }

  /** Records written one after another read back in the order they were written. */
  lemma {:induction false} WriteAllThenRead(files: map<string, FileState>, category: string, logs: seq<Log>)
    ensures ReadFrom(WriteAll(files, category, logs), category) == ReadFrom(files, category) + logs
    decreases |logs|
  {
    if |logs| > 0 {
      WriteThenRead(files, category, logs[0]);
      WriteAllThenRead(WriteTo(files, category, logs[0]), category, logs[1..]);
      assert [logs[0]] + logs[1..] == logs;
    }
  }

  /** On an empty store, N writes read back as exactly those N records. */
  lemma EmptyStoreReadsBack(category: string, logs: seq<Log>)
    ensures ReadFrom(WriteAll(map[], category, logs), category) == logs
  {
    WriteAllThenRead(map[], category, logs);
  }

  /** The log directory and the files in it. */
  class LogStore {
    var dirExists: bool
    var files: map<string, FileState>

    /** No file exists while the directory does not. */
    ghost predicate Valid()
      reads this
    {
      !dirExists ==> files == map[]
    }

    constructor (dirExists: bool, files: map<string, FileState>)
      requires !dirExists ==> files == map[]
      ensures Valid() && this.dirExists == dirExists && this.files == files
    {
      this.dirExists := dirExists;
      this.files := files;
    }

    /** `ReadLogs`: creates the directory when it is missing, never fails, never changes a file. */
    method ReadLogs(category: string) returns (logs: seq<Log>)
      requires Valid()
      modifies this`dirExists
      ensures Valid() && dirExists
      ensures logs == ReadFrom(files, category)
      ensures files == old(files)
    {
      if !dirExists {
        dirExists := true;
      }
      var path := LogFilePath(category);
      if path !in files {
        return [];
      }
      match files[path]
      case Damaged =>
        return [];
      case Records(stored) =>
        return stored;
    }

    /**
      `WriteLog`: read the category, append the record, rewrite the whole
      file. `outcome` is how the host's `WriteFile` ended; a failure is
      only reported to the process log.
     */
    method WriteLog(category: string, log: Log, outcome: WriteOutcome)
      requires Valid()
      modifies this
      ensures Valid() && dirExists
      ensures outcome == Written ==> files == old(files)[LogFilePath(category) := Records(ReadFrom(old(files), category) + [log])]
      ensures outcome == NotOpened ==> files == old(files)
      ensures outcome == Truncated ==> files == old(files)[LogFilePath(category) := Damaged]
    {
      var path := LogFilePath(category);
      var logs := ReadLogs(category);
      logs := logs + [log];
      match outcome
      case Written =>
        files := files[path := Records(logs)];
      case NotOpened =>
      case Truncated =>
        files := files[path := Damaged];
    }
  }
}

=== FILE: comment.dfy ===
/**
  The review comment template (features/web-hook/create_comment.go): a
  bot header, the caller's text, and a footer naming the assigned server.
 */
module Comments {
  import Text
  import Config

  const BotHeader: string := "**[Prolific Bot]**\n\n"

  /** The footer built from `server.name` and `server.url`. */
  function Footer(cfg: Config.Config): string {
    "\n\nAssigned Server: [" + Config.Get(cfg, "server", "name") + "](" + Config.Get(cfg, "server", "url") + ")"
  }

  /** `createComment`. */
  function CreateComment(comment: string, cfg: Config.Config): (out: string)
    ensures Text.HasPrefix(out, BotHeader)
    ensures |out| == |BotHeader| + |comment| + |Footer(cfg)|
  {
    BotHeader + comment + Footer(cfg)
  }

  /** The caller's text inside a templated comment: what lies between the header and the footer. */
  function CommentText(out: string, cfg: Config.Config): string
    requires |out| >= |BotHeader| + |Footer(cfg)|
  {
    out[|BotHeader|..|out| - |Footer(cfg)|]
  }

  /** The caller's text sits verbatim between header and footer, and the footer ends the comment. */
  lemma CommentRoundTrip(comment: string, cfg: Config.Config)
    ensures var out := CreateComment(comment, cfg);
      && |out| >= |BotHeader| + |Footer(cfg)|
      && CommentText(out, cfg) == comment
      && out[|out| - |Footer(cfg)|..] == Footer(cfg)
  {
    var out := CreateComment(comment, cfg);
    assert out[|BotHeader|..|BotHeader| + |comment|] == comment;
    assert out[|BotHeader| + |comment|..] == Footer(cfg);
  }

  /** For one server, different texts give different comments. */
  lemma CreateCommentInjective(c1: string, c2: string, cfg: Config.Config)
    requires CreateComment(c1, cfg) == CreateComment(c2, cfg)
    ensures c1 == c2
  {
    CommentRoundTrip(c1, cfg);
    CommentRoundTrip(c2, cfg);
  }
}

=== FILE: config.dfy ===
/**
  The configuration surface: values looked up by section and key. Missing
  keys read as the empty string (`Get`) or as the caller's default
  (`GetWithDefault`).
 */
module Config {

  datatype Config = Config(entries: map<(string, string), string>)

  /** `config.Get(section, key)`. */
  function Get(cfg: Config, section: string, key: string): (v: string)
    ensures (section, key) !in cfg.entries ==> v == ""
    ensures (section, key) in cfg.entries ==> v == cfg.entries[(section, key)]
  {
    if (section, key) in cfg.entries then cfg.entries[(section, key)] else ""
  }

  /** `config.GetWithDefault(section, key, default)`. */
  function GetWithDefault(cfg: Config, section: string, key: string, default: string): (v: string)
    ensures (section, key) !in cfg.entries ==> v == default
    ensures (section, key) in cfg.entries ==> v == cfg.entries[(section, key)]
  {
    if (section, key) in cfg.entries then cfg.entries[(section, key)] else default
  }
}

=== FILE: deploy.dfy ===
/**
  The deployment executor (features/web-hook/deploy.go): check the paths
  and tools, then run four fixed commands in the repository's directory,
  recording one log per attempted command and stopping at the first that
  fails.
 */
module Deployer {
  import opened Wrappers
  import Text
  import Config
  import opened Exec

  /** One command of the deployment: an executable and its arguments. */
  datatype Step = Step(exe: Executable, args: seq<string>)

  /** What `deploy` returns: the logs of the attempted commands and the error, if any. */
  datatype DeployResult = DeployResult(logs: seq<ExecutableLog>, err: Option<string>)

  /** `Prolific.Root_Path`, through `filepath.Join`. */
  function RootPath(cfg: Config.Config): string {
    Text.PathJoin([Config.Get(cfg, "Prolific", "Root_Path")])
  }

  /** The checkout of a repository's branch: `root/branch/repository`. */
  function RepoPath(rootPath: string, branch: string, repository: string): string {
    Text.PathJoin([rootPath, branch, repository])
  }

  /** The account the commands run as: `Prolific.User`, by default "root". */
  function DeployUser(cfg: Config.Config): string {
    Config.GetWithDefault(cfg, "Prolific", "User", "root")
  }

  /** With all three parts non-empty, the branch directory holds the repository directory. */
  lemma RepoPathLayout(rootPath: string, branch: string, repository: string)
    requires rootPath != "" && branch != "" && repository != ""
    ensures RepoPath(rootPath, branch, repository) == rootPath + "/" + branch + "/" + repository
  {
    var l1, l2, l3 := [rootPath, branch, repository], [branch, repository], [repository];
    assert l3[1..] == [] && Text.NonEmpty(l3) == l3;
    assert l2[1..] == l3 && Text.NonEmpty(l2) == l2;
    assert l1[1..] == l2 && Text.NonEmpty(l1) == l1;
    Text.JoinCons(l1, "/");
    Text.JoinCons(l2, "/");
  }

  /** `execute`: run the command and record it; the output is kept and the error message copied on failure. */
  function Execute(e: Executable, args: seq<string>, host: Host): (r: (ExecutableLog, Option<string>))
    ensures r.0.name == e.path && r.0.workDir == e.workingDirectory
    ensures r.0.args == Text.Join(Argv(e, args), " ")
    ensures r.0.output == Run(e, args, host).output
    ensures r.1 == Run(e, args, host).err
    ensures r.1.None? ==> r.0.error == ""
    ensures r.1.Some? ==> r.0.error == r.1.value
  {
    var outcome := Run(e, args, host);
    var message := if outcome.err.Some? then outcome.err.value else "";
    (ExecutableLog(e.path, Text.Join([e.path] + args, " "), e.workingDirectory, outcome.output, message), outcome.err)
  }

  /**
    Go never reports a failed run with an empty message ("exit status 1",
    "fork/exec ...: no such file or directory"); for such runs the log's
    error is empty exactly when the run succeeded.
   */
  lemma ExecuteErrorEmptyIff(e: Executable, args: seq<string>, host: Host)
    requires Run(e, args, host).err != Some("")
    ensures Execute(e, args, host).0.error == "" <==> Execute(e, args, host).1.None?
  {
  }

  /** The recorded argument string splits back into the argument vector when no argument holds a space. */
  lemma ExecuteArgsRecoverable(e: Executable, args: seq<string>, host: Host)
    requires ' ' !in e.path
    requires forall i :: 0 <= i < |args| ==> ' ' !in args[i]
    ensures Text.Split(Execute(e, args, host).0.args, ' ') == Argv(e, args)
  {
    var argv := Argv(e, args);
    assert forall i :: 0 <= i < |argv| ==> ' ' !in argv[i] by {
      forall i | 0 <= i < |argv| ensures ' ' !in argv[i] {
        if i > 0 { assert argv[i] == args[i - 1]; }
      }
    }
    Text.SplitJoin(argv, ' ');
  }

  function StepLog(steps: seq<Step>, i: nat, host: Host): ExecutableLog
    requires i < |steps|
  {
    Execute(steps[i].exe, steps[i].args, host).0
  }

  function StepError(steps: seq<Step>, i: nat, host: Host): Option<string>
    requires i < |steps|
  {
    Execute(steps[i].exe, steps[i].args, host).1
  }

  /** Run the steps in order, keeping each one's log, and stop after the first that fails. */
  function RunSteps(steps: seq<Step>, host: Host): (r: DeployResult)
    ensures |r.logs| <= |steps|
    ensures r.err.Some? ==> |r.logs| >= 1
    decreases |steps|
  {
    if |steps| == 0 then DeployResult([], None)
    else
      var (log, err) := Execute(steps[0].exe, steps[0].args, host);
      if err.Some? then DeployResult([log], err)
      else
        var rest := RunSteps(steps[1..], host);
        DeployResult([log] + rest.logs, rest.err)
  }

  /** The logs are those of a prefix of the steps, in step order. */
  lemma {:induction false} RunStepsLogs(steps: seq<Step>, host: Host)
    ensures var r := RunSteps(steps, host);
      && |r.logs| <= |steps|
      && (forall i :: 0 <= i < |r.logs| ==> r.logs[i] == StepLog(steps, i, host))
    decreases |steps|
  {
    if |steps| > 0 && StepError(steps, 0, host).None? {
      var tail := steps[1..];
      RunStepsLogs(tail, host);
      var r, rest := RunSteps(steps, host), RunSteps(tail, host);
      assert r.logs == [StepLog(steps, 0, host)] + rest.logs;
      forall i | 0 <= i < |r.logs| ensures r.logs[i] == StepLog(steps, i, host) {
        if i > 0 {
          assert r.logs[i] == rest.logs[i - 1] == StepLog(tail, i - 1, host);
          assert tail[i - 1] == steps[i];
        }
      }
    }
  }

  /** Every logged step but the last succeeded, and a failed run ends with the last logged step's error. */
  lemma {:induction false} RunStepsFailurePoint(steps: seq<Step>, host: Host)
    ensures var r := RunSteps(steps, host);
      && (forall i :: 0 <= i < |r.logs| - 1 ==> StepError(steps, i, host).None?)
      && (r.err.Some? ==> r.err == StepError(steps, |r.logs| - 1, host))
    decreases |steps|
  {
    if |steps| > 0 && StepError(steps, 0, host).None? {
      var tail := steps[1..];
      RunStepsFailurePoint(tail, host);
      var r, rest := RunSteps(steps, host), RunSteps(tail, host);
      assert r.logs == [StepLog(steps, 0, host)] + rest.logs && r.err == rest.err;
      forall i | 0 < i < |steps| ensures StepError(tail, i - 1, host) == StepError(steps, i, host) {
        assert tail[i - 1] == steps[i];
      }
    }
  }

  /** The run ends without error exactly when every step ran and succeeded. */
  lemma {:induction false} RunStepsCompletes(steps: seq<Step>, host: Host)
    ensures var r := RunSteps(steps, host);
      r.err.None? <==> |r.logs| == |steps| && forall i :: 0 <= i < |steps| ==> StepError(steps, i, host).None?
    decreases |steps|
  {
    if |steps| > 0 && StepError(steps, 0, host).None? {
      var tail := steps[1..];
      RunStepsCompletes(tail, host);
      var r, rest := RunSteps(steps, host), RunSteps(tail, host);
      assert |r.logs| == 1 + |rest.logs| && r.err == rest.err;
      forall j | 0 <= j < |tail| ensures StepError(tail, j, host) == StepError(steps, j + 1, host) {
        assert tail[j] == steps[j + 1];
      }
      if forall i :: 0 <= i < |steps| ==> StepError(steps, i, host).None? {
        assert forall j :: 0 <= j < |tail| ==> StepError(tail, j, host).None?;
      }
      if forall j :: 0 <= j < |tail| ==> StepError(tail, j, host).None? {
        forall i | 0 <= i < |steps| ensures StepError(steps, i, host).None? {
          if i > 0 {
            assert StepError(tail, i - 1, host).None?;
          }
        }
      }
    }
  }

  /** Both halves together. */
  lemma RunStepsShape(steps: seq<Step>, host: Host)
    ensures var r := RunSteps(steps, host);
      && |r.logs| <= |steps|
      && (forall i :: 0 <= i < |r.logs| ==> r.logs[i] == StepLog(steps, i, host))
      && (forall i :: 0 <= i < |r.logs| - 1 ==> StepError(steps, i, host).None?)
      && (r.err.None? <==> |r.logs| == |steps| && forall i :: 0 <= i < |steps| ==> StepError(steps, i, host).None?)
      && (r.err.Some? ==> |r.logs| >= 1 && r.err == StepError(steps, |r.logs| - 1, host))
  {
    RunStepsLogs(steps, host);
    RunStepsFailurePoint(steps, host);
    RunStepsCompletes(steps, host);
  }

  /** If step `k` is the first to fail, exactly `k + 1` logs come back, the last being step `k`'s. */
  lemma StopsAtFirstFailure(steps: seq<Step>, host: Host, k: nat)
    requires k < |steps|
    requires StepError(steps, k, host).Some?
    requires forall i :: 0 <= i < k ==> StepError(steps, i, host).None?
    ensures |RunSteps(steps, host).logs| == k + 1
    ensures RunSteps(steps, host).logs[k] == StepLog(steps, k, host)
    ensures RunSteps(steps, host).err == StepError(steps, k, host)
  {
    RunStepsShape(steps, host);
  }

  /** Without a failing step every step runs and no error comes back. */
  lemma RunsAllWithoutFailure(steps: seq<Step>, host: Host)
    requires forall i :: 0 <= i < |steps| ==> StepError(steps, i, host).None?
    ensures |RunSteps(steps, host).logs| == |steps|
    ensures RunSteps(steps, host).err == None
  {
    RunStepsShape(steps, host);
  }

  /** The first executable that does not exist, as `checkDependencies` reports it. */
  function MissingDependency(exes: seq<Executable>, host: Host): Option<string> {
    if |exes| == 0 then None
    else if !Exists(exes[0], host) then Some("dependency " + exes[0].name + " not available")
    else MissingDependency(exes[1..], host)
  }

  /** `MissingDependency` names the first missing executable in argument order, and is `None` only when all exist. */
  lemma {:induction false} MissingDependencyIsFirst(exes: seq<Executable>, host: Host)
    ensures MissingDependency(exes, host).None? <==> forall i :: 0 <= i < |exes| ==> Exists(exes[i], host)
    ensures MissingDependency(exes, host).Some? ==>
              exists k :: 0 <= k < |exes| && !Exists(exes[k], host)
                          && (forall i :: 0 <= i < k ==> Exists(exes[i], host))
                          && MissingDependency(exes, host) == Some("dependency " + exes[k].name + " not available")
  {
    if |exes| > 0 && Exists(exes[0], host) {
      var tail := exes[1..];
      MissingDependencyIsFirst(tail, host);
      assert forall i :: 0 <= i < |tail| ==> tail[i] == exes[i + 1];
      if MissingDependency(tail, host).Some? {
        var k :| 0 <= k < |tail| && !Exists(tail[k], host)
                 && (forall i :: 0 <= i < k ==> Exists(tail[i], host))
                 && MissingDependency(tail, host) == Some("dependency " + tail[k].name + " not available");
        assert !Exists(exes[k + 1], host);
        assert forall i :: 0 <= i < k + 1 ==> Exists(exes[i], host) by {
          forall i | 0 <= i < k + 1 ensures Exists(exes[i], host) {
            if i > 0 { assert exes[i] == tail[i - 1]; }
          }
        }
      } else {
        forall i | 0 <= i < |exes| ensures Exists(exes[i], host) {
          if i > 0 { assert exes[i] == tail[i - 1]; }
        }
      }
    }
  }

  /** `checkDependencies`: the first executable that does not exist, in argument order. */
  method CheckDependencies(exes: seq<Executable>, host: Host) returns (err: Option<string>)
    ensures err == MissingDependency(exes, host)
  {
    var i := 0;
    while i < |exes|
      invariant 0 <= i <= |exes|
      invariant MissingDependency(exes[i..], host) == MissingDependency(exes, host)
    {
      if !Exists(exes[i], host) {
        return Some("dependency " + exes[i].name + " not available");
      }
      assert exes[i..][1..] == exes[i + 1..];
      i := i + 1;
    }
    return None;
  }

  /**
    The four commands, in order: checkout, pull and make as `user` through
    `su`, then `make deploy`. Each `su -c` command string is passed wrapped
    in single quotes, as the code builds it.
   */
  function Plan(su: Executable, make: Executable, user: string, branch: string): (plan: seq<Step>)
    ensures |plan| == 4
  {
    [ Step(su, [user, "-c", "'git checkout " + branch + "'"]),
      Step(su, [user, "-c", "'git pull'"]),
      Step(su, [user, "-c", "'make'"]),
      Step(make, ["deploy"]) ]
  }

  /** The shell command each `su` step is meant to run, before the code wraps it in quotes. */
  function SuCommand(i: nat, branch: string): string
    requires i < 3
  {
    if i == 0 then "git checkout " + branch else if i == 1 then "git pull" else "make"
  }

  /**
    As written, each `su -c` argument is the intended command inside a pair
    of single quotes, so the shell `su` starts reads the whole command,
    spaces included, as one quoted word naming a single program.
   */
  lemma SuCommandsQuoted(su: Executable, make: Executable, user: string, branch: string)
    ensures var plan := Plan(su, make, user, branch);
      forall i :: 0 <= i < 3 ==>
        && plan[i].exe == su && plan[i].args[..2] == [user, "-c"] && |plan[i].args| == 3
        && plan[i].args[2] == "'" + SuCommand(i, branch) + "'"
  {
  }

  /** The plan without the quotes: each `su -c` argument is the command itself. */
  function UnquotedPlan(su: Executable, make: Executable, user: string, branch: string): (plan: seq<Step>)
    ensures |plan| == 4
  {
    [ Step(su, [user, "-c", SuCommand(0, branch)]),
      Step(su, [user, "-c", SuCommand(1, branch)]),
      Step(su, [user, "-c", SuCommand(2, branch)]),
      Step(make, ["deploy"]) ]
  }

  /**
    The corrected plan runs the same executables with the same user and
    `-c` flag, and hands `su` each command with its quotes stripped; the
    `make deploy` step is unchanged.
   */
  lemma UnquotedPlanStripsQuotes(su: Executable, make: Executable, user: string, branch: string)
    ensures var fixed, written := UnquotedPlan(su, make, user, branch), Plan(su, make, user, branch);
      && fixed[3] == written[3]
      && forall i :: 0 <= i < 3 ==>
           && fixed[i].exe == written[i].exe && fixed[i].args[..2] == written[i].args[..2]
           && |written[i].args[2]| >= 2
           && fixed[i].args[2] == written[i].args[2][1..|written[i].args[2]| - 1]
  {
    var fixed, written := UnquotedPlan(su, make, user, branch), Plan(su, make, user, branch);
    forall i | 0 <= i < 3
      ensures fixed[i].args[2] == written[i].args[2][1..|written[i].args[2]| - 1]
    {
      var c := SuCommand(i, branch);
      assert written[i].args[2] == "'" + c + "'";
      assert ("'" + c + "'")[1..|c| + 1] == c;
    }
  }

  /**
    The checks before any command runs: the root path and the repository
    path exist, `su` and `make` resolve and exist. Either the first failing
    check's error or the plan to run.
   */
  function Prepare(repository: string, branch: string, cfg: Config.Config, host: Host): Result<seq<Step>>
  {
    var rootPath := RootPath(cfg);
    if !host.stat(rootPath) then Failure("root path " + rootPath + " does not exist")
    else
      var repoPath := RepoPath(rootPath, branch, repository);
      if !host.stat(repoPath) then Failure("repository path " + repoPath + " does not exist")
      else
        match NewExecutable("su", repoPath, host)
        case Failure(e) => Failure(e)
        case Success(su) =>
          match NewExecutable("make", repoPath, host)
          case Failure(e) => Failure(e)
          case Success(make) =>
            match MissingDependency([su, make], host)
            case Some(e) => Failure(e)
            case None => Success(Plan(su, make, DeployUser(cfg), branch))
  }

  /**
    The plan comes back only when both paths exist and both executables
    resolve and exist, and it is the four commands for those executables;
    otherwise the first failing check, in the order root path, repository
    path, `su`, `make`, dependencies, supplies the error.
   */
  lemma PrepareOutcome(repository: string, branch: string, cfg: Config.Config, host: Host)
    ensures var r := Prepare(repository, branch, cfg, host);
      var root := RootPath(cfg);
      var repoPath := RepoPath(root, branch, repository);
      var su := NewExecutable("su", repoPath, host);
      var make := NewExecutable("make", repoPath, host);
      && (!host.stat(root) ==> r == Failure("root path " + root + " does not exist"))
      && (host.stat(root) && !host.stat(repoPath) ==> r == Failure("repository path " + repoPath + " does not exist"))
      && (host.stat(root) && host.stat(repoPath) && su.Failure? ==> r == Failure(su.error))
      && (host.stat(root) && host.stat(repoPath) && su.Success? && make.Failure? ==> r == Failure(make.error))
      && (host.stat(root) && host.stat(repoPath) && su.Success? && make.Success? && !Exists(su.value, host) ==>
            r == Failure("dependency su not available"))
      && (host.stat(root) && host.stat(repoPath) && su.Success? && make.Success? && Exists(su.value, host)
          && !Exists(make.value, host) ==>
            r == Failure("dependency make not available"))
      && (r.Success? <==>
            host.stat(root) && host.stat(repoPath) && su.Success? && make.Success?
            && Exists(su.value, host) && Exists(make.value, host))
      && (r.Success? ==> r.value == Plan(su.value, make.value, DeployUser(cfg), branch))
  {
    var root := RootPath(cfg);
    var repoPath := RepoPath(root, branch, repository);
    var su := NewExecutable("su", repoPath, host);
    var make := NewExecutable("make", repoPath, host);
    if host.stat(root) && host.stat(repoPath) && su.Success? && make.Success? {
      TwoDependencies(su.value, make.value, host);
      assert su.value.name == "su" && make.value.name == "make";
    }
  }

  /** The dependency check for `su` and `make`: the first one missing is named, `su` first. */
  lemma TwoDependencies(su: Executable, make: Executable, host: Host)
    ensures MissingDependency([su, make], host) ==
              if !Exists(su, host) then Some("dependency " + su.name + " not available")
              else if !Exists(make, host) then Some("dependency " + make.name + " not available")
              else None
  {
    assert [su, make][1..] == [make];
    assert [make][1..] == [];
    assert MissingDependency([], host) == None;
    assert MissingDependency([make], host) ==
             if !Exists(make, host) then Some("dependency " + make.name + " not available") else None;
  }

  /** What `deploy` returns. */
  function DeploySpec(owner: string, repository: string, branch: string, cfg: Config.Config, host: Host): DeployResult {
    match Prepare(repository, branch, cfg, host)
    case Failure(e) => DeployResult([], Some(e))
    case Success(plan) => RunSteps(plan, host)
  }

  /** A failed check before the commands returns its error and no logs. */
  lemma PrecheckFailureHasNoLogs(owner: string, repository: string, branch: string, cfg: Config.Config, host: Host)
    requires Prepare(repository, branch, cfg, host).Failure?
    ensures DeploySpec(owner, repository, branch, cfg, host).logs == []
    ensures DeploySpec(owner, repository, branch, cfg, host).err == Some(Prepare(repository, branch, cfg, host).error)
  {
  }

  /** If command `k` (counting from 0) is the first to fail, `k + 1` logs come back and the error is its error. */
  lemma DeployFailsAtStep(owner: string, repository: string, branch: string, cfg: Config.Config, host: Host, k: nat)
    requires Prepare(repository, branch, cfg, host).Success?
    requires var plan := Prepare(repository, branch, cfg, host).value;
      k < 4 && StepError(plan, k, host).Some? && forall i :: 0 <= i < k ==> StepError(plan, i, host).None?
    ensures var plan := Prepare(repository, branch, cfg, host).value;
      var r := DeploySpec(owner, repository, branch, cfg, host);
      && |r.logs| == k + 1
      && r.err == StepError(plan, k, host)
      && r.logs[k] == StepLog(plan, k, host)
      && r.logs[k].error == r.err.value
  {
    StopsAtFirstFailure(Prepare(repository, branch, cfg, host).value, host, k);
  }

  /** A successful deployment ran all four commands, none of which recorded an error. */
  lemma DeploySuccess(owner: string, repository: string, branch: string, cfg: Config.Config, host: Host)
    requires DeploySpec(owner, repository, branch, cfg, host).err.None?
    ensures Prepare(repository, branch, cfg, host).Success?
    ensures var r := DeploySpec(owner, repository, branch, cfg, host);
      |r.logs| == 4 && forall i :: 0 <= i < 4 ==> r.logs[i].error == ""
  {
    PrepareOutcome(repository, branch, cfg, host);
    var plan := Prepare(repository, branch, cfg, host).value;
    RunStepsShape(plan, host);
    var r := DeploySpec(owner, repository, branch, cfg, host);
    forall i | 0 <= i < 4 ensures r.logs[i].error == "" {
      assert r.logs[i] == StepLog(plan, i, host);
      assert StepError(plan, i, host).None?;
    }
  }

  /** The first `k` steps ran without error and logged `logs`: the whole run is those logs and the run of the rest. */
  ghost predicate RanUpTo(plan: seq<Step>, k: nat, logs: seq<ExecutableLog>, host: Host)
    requires k <= |plan|
  {
    RunSteps(plan, host) == DeployResult(logs + RunSteps(plan[k..], host).logs, RunSteps(plan[k..], host).err)
  }

  /** Running step `k` either ends the run with its error or extends the successful prefix by its log. */
  lemma RunNextStep(plan: seq<Step>, k: nat, logs: seq<ExecutableLog>, host: Host)
    requires k < |plan| && RanUpTo(plan, k, logs, host)
    ensures StepError(plan, k, host).Some? ==>
              RunSteps(plan, host) == DeployResult(logs + [StepLog(plan, k, host)], StepError(plan, k, host))
    ensures StepError(plan, k, host).None? ==> RanUpTo(plan, k + 1, logs + [StepLog(plan, k, host)], host)
  {
    var rest := plan[k..];
    assert rest[0] == plan[k] && rest[1..] == plan[k + 1..];
    if StepError(plan, k, host).None? {
      var after := RunSteps(plan[k + 1..], host);
      assert RunSteps(rest, host).logs == [StepLog(plan, k, host)] + after.logs;
      assert logs + ([StepLog(plan, k, host)] + after.logs) == (logs + [StepLog(plan, k, host)]) + after.logs;
    }
  }

  /** `deploy`. */
  method Deploy(owner: string, repository: string, branch: string, cfg: Config.Config, host: Host)
    returns (executableLogs: seq<ExecutableLog>, err: Option<string>)
    ensures DeployResult(executableLogs, err) == DeploySpec(owner, repository, branch, cfg, host)
  {
    executableLogs := [];
    var rootPath := Text.PathJoin([Config.Get(cfg, "Prolific", "Root_Path")]);
    if !host.stat(rootPath) {
      return executableLogs, Some("root path " + rootPath + " does not exist");
    }
    var repoPath := Text.PathJoin([rootPath, branch, repository]);
    if !host.stat(repoPath) {
      return executableLogs, Some("repository path " + repoPath + " does not exist");
    }
    var suExec := NewExecutable("su", repoPath, host);
    if suExec.Failure? {
      return executableLogs, Some(suExec.error);
    }
    var makeExec := NewExecutable("make", repoPath, host);
    if makeExec.Failure? {
      return executableLogs, Some(makeExec.error);
    }
    err := CheckDependencies([suExec.value, makeExec.value], host);
    if err.Some? {
      return executableLogs, err;
    }
    var user := Config.GetWithDefault(cfg, "Prolific", "User", "root");
    executableLogs, err := RunCommands(suExec.value, makeExec.value, user, branch, host);
  }

  /** The commands half of `deploy`: the three `su` commands and `make deploy`, stopping at the first failure. */
  method RunCommands(su: Executable, make: Executable, user: string, branch: string, host: Host)
    returns (executableLogs: seq<ExecutableLog>, err: Option<string>)
    ensures DeployResult(executableLogs, err) == RunSteps(Plan(su, make, user, branch), host)
  {
    ghost var plan := Plan(su, make, user, branch);
    assert plan[0..] == plan;
    executableLogs := [];

    var commandString := "'git checkout " + branch + "'";
    RunNextStep(plan, 0, executableLogs, host);
    var executed := Execute(su, [user, "-c", commandString], host);
    executableLogs, err := executableLogs + [executed.0], executed.1;
    if err.Some? {
      return;
    }
    commandString := "'git pull'";
    RunNextStep(plan, 1, executableLogs, host);
    executed := Execute(su, [user, "-c", commandString], host);
    executableLogs, err := executableLogs + [executed.0], executed.1;
    if err.Some? {
      return;
    }
    commandString := "'make'";
    RunNextStep(plan, 2, executableLogs, host);
    executed := Execute(su, [user, "-c", commandString], host);
    executableLogs, err := executableLogs + [executed.0], executed.1;
    if err.Some? {
      return;
    }
    RunNextStep(plan, 3, executableLogs, host);
    executed := Execute(make, ["deploy"], host);
    executableLogs, err := executableLogs + [executed.0], executed.1;
    if err.Some? {
      return;
    }
    assert plan[4..] == [];
    return executableLogs, None;
  }
}

=== FILE: executable.dfy ===
/**
  Executables resolved on the host's search path and run in a working
  directory (features/common/executable.go). The host's `exec.LookPath`,
  `os.Getwd` and `exec.Cmd.Output` are fields of `Host`.
 */
module Exec {
  import opened Wrappers
  import Text

  /** What a finished child process reports: its standard output, and an error message unless it succeeded. */
  datatype RunOutcome = RunOutcome(output: string, err: Option<string>)

  /** The operating system, as seen by the deployer. */
  datatype Host = Host(
    lookPath: string -> Result<string>,            // exec.LookPath
    getwd: Result<string>,                         // os.Getwd
    stat: string -> bool,                          // os.Stat succeeds
    run: (string, seq<string>, string) -> RunOutcome // exec.Cmd{Path, Args, Dir}.Output()
  )

  datatype Executable = Executable(name: string, path: string, workingDirectory: string)

  /** One record per attempted command, as stored in the audit log. */
  datatype ExecutableLog = ExecutableLog(name: string, args: string, workDir: string, output: string, error: string)

  /** `Executable.Exists`: the name resolves, and to a non-empty path. */
  function Exists(e: Executable, host: Host): (b: bool)
    ensures b <==> host.lookPath(e.name).Success? && host.lookPath(e.name).value != ""
  {
    match host.lookPath(e.name)
    case Failure(_) => false
    case Success(p) => p != ""
  }

  /** `NewExecutable`: resolve `name`, defaulting the directory to the current one. */
  function NewExecutable(name: string, workingDirectory: string, host: Host): (r: Result<Executable>)
    ensures workingDirectory == "" && host.getwd.Failure? ==> r == Failure(host.getwd.error)
    ensures (workingDirectory != "" || host.getwd.Success?) ==>
              (r.Failure? <==> host.lookPath(name).Failure?)
    ensures r.Success? ==>
              && r.value.name == name
              && r.value.path == host.lookPath(name).value
              && r.value.workingDirectory == (if workingDirectory == "" then host.getwd.value else workingDirectory)
  {
    if workingDirectory == "" && host.getwd.Failure? then Failure(host.getwd.error)
    else
      var dir := if workingDirectory == "" then host.getwd.value else workingDirectory;
      match host.lookPath(name)
      case Failure(msg) => Failure(msg)
      case Success(p) => Success(Executable(name, p, dir))
  }

  /** The argument vector `Run` hands to the process: the path, then the arguments. */
  function Argv(e: Executable, args: seq<string>): (argv: seq<string>)
    ensures |argv| == |args| + 1 && argv[0] == e.path && argv[1..] == args
  {
    [e.path] + args
  }

  /** `Executable.Run`: run the resolved path with `Argv` in the working directory; the output is kept on failure too. */
  function Run(e: Executable, args: seq<string>, host: Host): (r: RunOutcome)
    ensures r == host.run(e.path, Argv(e, args), e.workingDirectory)
  {
    host.run(e.path, [e.path] + args, e.workingDirectory)
  }

  /** An executable built by `NewExecutable` exists unless its path resolved to the empty string. */
  lemma CreatedExists(name: string, dir: string, host: Host)
    requires NewExecutable(name, dir, host).Success?
    ensures Exists(NewExecutable(name, dir, host).value, host) <==> NewExecutable(name, dir, host).value.path != ""
  {
  }
}

=== FILE: handler.dfy ===
/**
  The JSON response envelope shared by every endpoint
  (features/common/handler.go).
 */
module Handler {
  import opened Wrappers
  import Config
  import AuditLog

  const StatusOK: int := 200
  const StatusBadRequest: int := 400
  const StatusUnauthorized: int := 401
  const StatusNotFound: int := 404
  const StatusInternalServerError: int := 500
  const JsonContentType: string := "application/json"

  datatype Error = Error(code: int, reason: string)

  /** The `data` member: absent, or the records of an audit-log category. */
  datatype Data = NoData | Records(logs: seq<AuditLog.Log>)

  /** The JSON body of a response. */
  datatype ResponseBody = ResponseBody(success: bool, error: Option<Error>, message: string, data: Data)

  /** What goes on the wire: status line, Content-Type header and body. */
  datatype HttpReply = HttpReply(status: int, contentType: string, body: ResponseBody)

  /** `CreateError`. */
  function CreateError(code: int, reason: string): (e: Error)
    ensures e.code == code && e.reason == reason
  {
    Error(code, reason)
  }

  /** A response handlers fill in step by step; `SetError` updates it in place. */
  class Response {
    var success: bool
    var error: Option<Error>
    var message: string
    var data: Data

    /** `CreateResponse`: a successful response with no error, message or data. */
    constructor Create()
      ensures success && error == None && message == "" && data == NoData
    {
      success := true;
      error := None;
      message := "";
      data := NoData;
    }

    function Body(): ResponseBody
      reads this
    {
      ResponseBody(success, error, message, data)
    }

    /** `SetError`: marks the response failed with `e`, keeps message and data, returns the same object. */
    method SetError(e: Error) returns (self: Response)
      modifies this
      ensures self == this
      ensures !success && error == Some(e)
      ensures message == old(message) && data == old(data)
    {
      success := false;
      error := Some(e);
      self := this;
    }
  }

  /** `SendResponseWithStatusCode`: every reply is JSON, with the status the handler chose. */
  function SendWithStatus(body: ResponseBody, status: int): (reply: HttpReply)
    ensures reply.status == status && reply.contentType == JsonContentType && reply.body == body
  {
    HttpReply(status, JsonContentType, body)
  }

  /** `SendResponse`: always status 200. */
  function Send(body: ResponseBody): (reply: HttpReply)
    ensures reply.status == StatusOK && reply.contentType == JsonContentType && reply.body == body
  {
    SendWithStatus(body, StatusOK)
  }

  /** The body every failure path sends: not successful, carrying only the error. */
  function Failed(code: int, reason: string): (body: ResponseBody)
    ensures !body.success && body.error == Some(Error(code, reason))
    ensures body.message == "" && body.data == NoData
  {
    ResponseBody(false, Some(Error(code, reason)), "", NoData)
  }

  /**
    `NotFoundHandler`: with `Server.Handle_Not_Found` equal to "true" (the
    default) a 404 carrying error 404 "Not Found"; otherwise a bare success.
   */
  method NotFoundHandler(cfg: Config.Config) returns (reply: HttpReply)
    ensures Config.GetWithDefault(cfg, "Server", "Handle_Not_Found", "true") == "true" ==>
              reply == HttpReply(StatusNotFound, JsonContentType, Failed(404, "Not Found"))
    ensures Config.GetWithDefault(cfg, "Server", "Handle_Not_Found", "true") != "true" ==>
              reply == HttpReply(StatusOK, JsonContentType, ResponseBody(true, None, "", NoData))
  {
    var response := new Response.Create();
    var handleNotFound := Config.GetWithDefault(cfg, "Server", "Handle_Not_Found", "true") == "true";
    if handleNotFound {
      var statusCode := StatusNotFound;
      var _ := response.SetError(CreateError(statusCode, "Not Found"));
      reply := SendWithStatus(response.Body(), statusCode);
    } else {
      reply := Send(response.Body());
    }
  }
}

=== FILE: installer.dfy ===
/**
  The install script (scripts/main.go): command dispatch, the platform
  gate of `deploy`, and the rewrite of the systemd unit template that
  points the service at the compiled binary.
 */
module Installer {
  import Text

  const PackageName: string := "prolific"

  /** Where `main` goes: one of the two commands, or `exit` with a code and message. */
  datatype Outcome = RunBuild | RunDeployLinux | Exited(code: int, message: string)

  /** `main` followed by the platform switch of `deploy`; `args` is `os.Args`, `goos` is `runtime.GOOS`. */
  function Main(args: seq<string>, goos: string): Outcome {
    if |args| <= 1 then Exited(1001, "No command provided.")
    else
      var command := Text.ToLower(args[1]);
      if command == "build" then RunBuild
      else if command == "deploy" then
        if goos == "linux" then RunDeployLinux
        else Exited(1003, "deployment on " + goos + " platform is not supported at the moment")
      else Exited(1002, "Command " + args[1] + " is unknown.")
  }

  /**
    The exit codes partition the inputs: 1001 exactly without a command,
    1002 exactly for a command that lower-cases to neither name (and the
    message quotes it as typed), 1003 exactly for deploy off Linux.
   */
  lemma MainOutcomes(args: seq<string>, goos: string)
    ensures Main(args, goos) == Exited(1001, "No command provided.") <==> |args| <= 1
    ensures Main(args, goos) == RunBuild <==> |args| > 1 && Text.ToLower(args[1]) == "build"
    ensures Main(args, goos) == RunDeployLinux <==> |args| > 1 && Text.ToLower(args[1]) == "deploy" && goos == "linux"
    ensures (Main(args, goos).Exited? && Main(args, goos).code == 1002) <==>
              |args| > 1 && Text.ToLower(args[1]) != "build" && Text.ToLower(args[1]) != "deploy"
    ensures (Main(args, goos).Exited? && Main(args, goos).code == 1002) ==>
              Main(args, goos).message == "Command " + args[1] + " is unknown."
    ensures (Main(args, goos).Exited? && Main(args, goos).code == 1003) <==>
              |args| > 1 && Text.ToLower(args[1]) == "deploy" && goos != "linux"
  {
  }

  /** Commands are matched without regard to case: spellings that lower-case alike lead to the same command. */
  lemma MainIgnoresCase(args1: seq<string>, args2: seq<string>, goos: string)
    requires |args1| > 1 && |args2| > 1
    requires Text.ToLower(args1[1]) == Text.ToLower(args2[1])
    ensures Main(args1, goos) == Main(args2, goos) ||
            (Main(args1, goos) == Exited(1002, "Command " + args1[1] + " is unknown.") &&
             Main(args2, goos) == Exited(1002, "Command " + args2[1] + " is unknown."))
  {
  }

  /** `getBinPath`. */
  function BinPath(workDir: string): string {
    Text.PathJoin([workDir, "bin", "release", PackageName + "_release"])
  }

  /** For a non-empty working directory the binary lives at `<workDir>/bin/release/prolific_release`. */
  lemma BinPathLayout(workDir: string)
    requires workDir != ""
    ensures BinPath(workDir) == workDir + "/bin/release/prolific_release"
  {
    Text.PathJoinFour(workDir, "bin", "release", PackageName + "_release");
  }

  // ---------------------------------------------------------------------
  // The unit template
  // ---------------------------------------------------------------------

  const DescriptionKey: string := "Description="
  const ConditionKey: string := "ConditionPathExists="
  const WorkingDirectoryKey: string := "WorkingDirectory="
  const ExecStartKey: string := "ExecStart="
  const MkdirKey: string := "ExecStartPre=/bin/mkdir -p /var/log/"
  const ChownKey: string := "ExecStartPre=/bin/chown syslog:adm /var/log/"
  const SyslogKey: string := "SyslogIdentifier="

  /** The seven prefixes `deployLinux` looks for, in the order it tests them. */
  const Prefixes: seq<string> := [DescriptionKey, ConditionKey, WorkingDirectoryKey, ExecStartKey, MkdirKey, ChownKey, SyslogKey]

  /** The line a line starting with `Prefixes[i]` is replaced with: the prefix and its fixed value. */
  function Replacement(i: nat, binPath: string, workDir: string): string
    requires i < |Prefixes|
  {
    Prefixes[i] + (if i == 1 || i == 3 then binPath else if i == 2 then workDir else PackageName)
  }

  /** A replacement keeps the prefix it replaced, so it is rewritten the same way again. */
  lemma ReplacementKeepsPrefix(i: nat, binPath: string, workDir: string)
    requires i < |Prefixes|
    ensures Text.HasPrefix(Replacement(i, binPath, workDir), Prefixes[i])
  {
    var r := Replacement(i, binPath, workDir);
    assert r[..|Prefixes[i]|] == Prefixes[i];
  }

  /**
    The rewrite of one template line. The loop tests the line as read
    against every prefix in turn and each match overwrites the slot, so the
    last prefix that matches decides; `PrefixesExclusive` shows at most one
    can.
   */
  function RewriteLine(line: string, binPath: string, workDir: string): string {
    if Text.HasPrefix(line, SyslogKey) then SyslogKey + PackageName
    else if Text.HasPrefix(line, ChownKey) then ChownKey + PackageName
    else if Text.HasPrefix(line, MkdirKey) then MkdirKey + PackageName
    else if Text.HasPrefix(line, ExecStartKey) then ExecStartKey + binPath
    else if Text.HasPrefix(line, WorkingDirectoryKey) then WorkingDirectoryKey + workDir
    else if Text.HasPrefix(line, ConditionKey) then ConditionKey + binPath
    else if Text.HasPrefix(line, DescriptionKey) then DescriptionKey + PackageName
    else line
  }

  /** The rewritten template: every line rewritten, none added, dropped or moved. */
  function Rewritten(lines: seq<string>, binPath: string, workDir: string): (r: seq<string>)
    ensures |r| == |lines|
  {
    seq(|lines|, i requires 0 <= i < |lines| => RewriteLine(lines[i], binPath, workDir))
  }

  /** Two prefixes that differ at a position both reach cannot both begin one line. */
  lemma PrefixClash(line: string, p: string, q: string, k: nat)
    requires k < |p| && k < |q| && p[k] != q[k]
    ensures Text.HasPrefix(line, p) ==> !Text.HasPrefix(line, q)
  {
    if Text.HasPrefix(line, p) {
      assert line[k] == p[k];
    }
  }

  /** No line starts with two of the seven prefixes, so the order of the tests does not matter. */
  lemma PrefixesExclusive(line: string)
    ensures forall i, j :: 0 <= i < j < |Prefixes| ==> !(Text.HasPrefix(line, Prefixes[i]) && Text.HasPrefix(line, Prefixes[j]))
  {
    PrefixClash(line, DescriptionKey, ConditionKey, 0);
    PrefixClash(line, DescriptionKey, WorkingDirectoryKey, 0);
    PrefixClash(line, DescriptionKey, ExecStartKey, 0);
    PrefixClash(line, DescriptionKey, MkdirKey, 0);
    PrefixClash(line, DescriptionKey, ChownKey, 0);
    PrefixClash(line, DescriptionKey, SyslogKey, 0);
    PrefixClash(line, ConditionKey, WorkingDirectoryKey, 0);
    PrefixClash(line, ConditionKey, ExecStartKey, 0);
    PrefixClash(line, ConditionKey, MkdirKey, 0);
    PrefixClash(line, ConditionKey, ChownKey, 0);
    PrefixClash(line, ConditionKey, SyslogKey, 0);
    PrefixClash(line, WorkingDirectoryKey, ExecStartKey, 0);
    PrefixClash(line, WorkingDirectoryKey, MkdirKey, 0);
    PrefixClash(line, WorkingDirectoryKey, ChownKey, 0);
    PrefixClash(line, WorkingDirectoryKey, SyslogKey, 0);
    PrefixClash(line, ExecStartKey, MkdirKey, 9);
    PrefixClash(line, ExecStartKey, ChownKey, 9);
    PrefixClash(line, ExecStartKey, SyslogKey, 0);
    PrefixClash(line, MkdirKey, ChownKey, 18);
    PrefixClash(line, MkdirKey, SyslogKey, 0);
    PrefixClash(line, ChownKey, SyslogKey, 0);
  }

  /** A line starting with none of the prefixes is left as it is. */
  lemma RewriteLineUnmatched(line: string, binPath: string, workDir: string)
    requires forall i :: 0 <= i < |Prefixes| ==> !Text.HasPrefix(line, Prefixes[i])
    ensures RewriteLine(line, binPath, workDir) == line
  {
    assert !Text.HasPrefix(line, Prefixes[0]) && !Text.HasPrefix(line, Prefixes[1]) && !Text.HasPrefix(line, Prefixes[2]);
    assert !Text.HasPrefix(line, Prefixes[3]) && !Text.HasPrefix(line, Prefixes[4]) && !Text.HasPrefix(line, Prefixes[5]);
    assert !Text.HasPrefix(line, Prefixes[6]);
  }

  /** A line starting with one of the prefixes becomes that prefix's replacement, whatever else it holds. */
  lemma RewriteLineMatched(line: string, binPath: string, workDir: string)
    ensures forall i :: 0 <= i < |Prefixes| && Text.HasPrefix(line, Prefixes[i]) ==>
              RewriteLine(line, binPath, workDir) == Replacement(i, binPath, workDir)
  {
    PrefixesExclusive(line);
    forall i | 0 <= i < |Prefixes| && Text.HasPrefix(line, Prefixes[i])
      ensures RewriteLine(line, binPath, workDir) == Replacement(i, binPath, workDir)
    {
      assert forall j :: 0 <= j < |Prefixes| && j != i ==> !Text.HasPrefix(line, Prefixes[j]);
      assert !Text.HasPrefix(line, Prefixes[6]) || i == 6;
      assert !Text.HasPrefix(line, Prefixes[5]) || i == 5;
      assert !Text.HasPrefix(line, Prefixes[4]) || i == 4;
      assert !Text.HasPrefix(line, Prefixes[3]) || i == 3;
      assert !Text.HasPrefix(line, Prefixes[2]) || i == 2;
      assert !Text.HasPrefix(line, Prefixes[1]) || i == 1;
      assert !Text.HasPrefix(line, Prefixes[0]) || i == 0;
      if i == 0 {
        assert Replacement(i, binPath, workDir) == DescriptionKey + PackageName;
      } else if i == 1 {
        assert Replacement(i, binPath, workDir) == ConditionKey + binPath;
      } else if i == 2 {
        assert Replacement(i, binPath, workDir) == WorkingDirectoryKey + workDir;
      } else if i == 3 {
        assert Replacement(i, binPath, workDir) == ExecStartKey + binPath;
      } else if i == 4 {
        assert Replacement(i, binPath, workDir) == MkdirKey + PackageName;
      } else if i == 5 {
        assert Replacement(i, binPath, workDir) == ChownKey + PackageName;
      } else {
        assert Replacement(i, binPath, workDir) == SyslogKey + PackageName;
      }
    }
  }

  /** Rewriting a rewritten line changes nothing. */
  lemma RewriteLineIdempotent(line: string, binPath: string, workDir: string)
    ensures RewriteLine(RewriteLine(line, binPath, workDir), binPath, workDir) == RewriteLine(line, binPath, workDir)
  {
    var once := RewriteLine(line, binPath, workDir);
    if i :| 0 <= i < |Prefixes| && Text.HasPrefix(line, Prefixes[i]) {
      RewriteLineMatched(line, binPath, workDir);
      ReplacementKeepsPrefix(i, binPath, workDir);
      RewriteLineMatched(once, binPath, workDir);
    } else {
      RewriteLineUnmatched(line, binPath, workDir);
    }
  }

  /** Rewriting the whole template twice is the same as once. */
  lemma RewrittenIdempotent(lines: seq<string>, binPath: string, workDir: string)
    ensures Rewritten(Rewritten(lines, binPath, workDir), binPath, workDir) == Rewritten(lines, binPath, workDir)
  {
    var once := Rewritten(lines, binPath, workDir);
    forall i | 0 <= i < |lines|
      ensures Rewritten(once, binPath, workDir)[i] == once[i]
    {
      RewriteLineIdempotent(lines[i], binPath, workDir);
    }
  }

  /**
    The body of the rewrite loop for one slot: seven independent tests of
    the line as read, each overwriting the slot when it matches.
   */
  method RewriteSlot(service: array<string>, index: nat, binPath: string, workDir: string)
    requires index < service.Length
    modifies service
    ensures service[index] == RewriteLine(old(service[index]), binPath, workDir)
    ensures forall j :: 0 <= j < service.Length && j != index ==> service[j] == old(service[j])
  {
    var line := service[index];
    if Text.HasPrefix(line, DescriptionKey) {
      service[index] := DescriptionKey + PackageName;
    }
    if Text.HasPrefix(line, ConditionKey) {
      service[index] := ConditionKey + binPath;
    }
    if Text.HasPrefix(line, WorkingDirectoryKey) {
      service[index] := WorkingDirectoryKey + workDir;
    }
    if Text.HasPrefix(line, ExecStartKey) {
      service[index] := ExecStartKey + binPath;
    }
    if Text.HasPrefix(line, MkdirKey) {
      service[index] := MkdirKey + PackageName;
    }
    if Text.HasPrefix(line, ChownKey) {
      service[index] := ChownKey + PackageName;
    }
    if Text.HasPrefix(line, SyslogKey) {
      service[index] := SyslogKey + PackageName;
    }
  }

  /** The rewrite loop of `deployLinux`, over the template's lines in place. */
  method RewriteTemplate(service: array<string>, binPath: string, workDir: string)
    modifies service
    ensures service[..] == Rewritten(old(service[..]), binPath, workDir)
  {
    for index := 0 to service.Length
      invariant forall j :: 0 <= j < index ==> service[j] == RewriteLine(old(service[j]), binPath, workDir)
      invariant forall j :: index <= j < service.Length ==> service[j] == old(service[j])
    {
      RewriteSlot(service, index, binPath, workDir);
    }
  }

  /** What is written to the unit file: the lines joined by newlines. */
  function ServiceContent(lines: seq<string>): string {
    Text.Join(lines, "\n")
  }

  /** Lines without newlines are read back from the unit file unchanged. */
  lemma ServiceContentReadsBack(lines: seq<string>)
    requires |lines| >= 1
    requires forall i :: 0 <= i < |lines| ==> '\n' !in lines[i]
    ensures Text.Split(ServiceContent(lines), '\n') == lines
  {
    Text.SplitJoin(lines, '\n');
  }

  /** The unit file path as written: `filepath.Join("etc", "systemd", "system", "prolific.service")`. */
  function ServiceFilePathAsWritten(): string {
    Text.PathJoin(["etc", "systemd", "system", PackageName + ".service"])
  }

  /** The path as written is relative: the unit lands under the working directory, not under /etc. */
  lemma ServiceFilePathIsRelative()
    ensures ServiceFilePathAsWritten() == "etc/systemd/system/prolific.service"
    ensures ServiceFilePathAsWritten()[0] != '/'
  {
    Text.PathJoinFour("etc", "systemd", "system", PackageName + ".service");
  }

  /** The unit file in the systemd unit directory, the place `systemctl enable prolific.service` looks. */
  function ServiceFilePath(): string {
    Text.PathJoin(["/etc", "systemd", "system", PackageName + ".service"])
  }

  /** The corrected path is absolute and names the unit directory itself. */
  lemma ServiceFilePathIsAbsolute()
    ensures ServiceFilePath() == "/etc/systemd/system/prolific.service"
    ensures ServiceFilePath()[0] == '/'
  {
    Text.PathJoinFour("/etc", "systemd", "system", PackageName + ".service");
  }

  /** The unit file `deployLinux` writes: where it goes and what it holds. */
  datatype UnitFile = UnitFile(path: string, content: string)

  /**
    The unit as the install evidently means it: the rewritten lines, as the
    whole content of a file in the unit directory.
   */
  function InstalledUnit(template: seq<string>, workDir: string): UnitFile {
    UnitFile(ServiceFilePath(), ServiceContent(Rewritten(template, BinPath(workDir), workDir)))
  }

  /**
    The file after writing `content` through `os.OpenFile` with
    `O_CREATE|O_RDWR` and no `O_TRUNC`: the new bytes overwrite the start of
    whatever file was there, and a longer old file keeps its tail.
   */
  function WrittenOver(previous: string, content: string): string {
    content + (if |previous| > |content| then previous[|content|..] else "")
  }

  /** The file starts with the new content and is exactly that content only when the old file was no longer. */
  lemma WrittenOverKeepsStaleTail(previous: string, content: string)
    ensures |WrittenOver(previous, content)| == if |previous| > |content| then |previous| else |content|
    ensures Text.HasPrefix(WrittenOver(previous, content), content)
    ensures WrittenOver(previous, content) == content <==> |previous| <= |content|
  {
    var file := WrittenOver(previous, content);
    assert file[..|content|] == content;
    if |previous| > |content| {
      assert |file| > |content|;
    }
  }

  /**
    Reinstalling a one-line unit over a two-line one leaves the old second
    line in the file: it reads back as two lines, not as the new unit.
   */
  lemma StaleLineSurvives(line: string, stale: string)
    requires '\n' !in line && '\n' !in stale
    ensures Text.Split(WrittenOver(line + "\n" + stale, line), '\n') == [line, stale]
  {
    var previous := line + "\n" + stale;
    assert previous[|line|..] == "\n" + stale;
    assert WrittenOver(previous, line) == line + ['\n'] + stale;
    Text.SplitPiece(line, '\n', stale);
    Text.SplitWhole(stale, '\n');
  }

  /** Rewriting a line introduces no line break when the values put in contain none. */
  lemma RewriteLineKeepsLineBreaksOut(line: string, binPath: string, workDir: string)
    requires '\n' !in line && '\n' !in binPath && '\n' !in workDir
    ensures '\n' !in RewriteLine(line, binPath, workDir)
  {
    var r := RewriteLine(line, binPath, workDir);
    if Text.HasPrefix(line, SyslogKey) {
      assert r == SyslogKey + PackageName;
    } else if Text.HasPrefix(line, ChownKey) {
      assert r == ChownKey + PackageName;
    } else if Text.HasPrefix(line, MkdirKey) {
      assert r == MkdirKey + PackageName;
    } else if Text.HasPrefix(line, ExecStartKey) {
      assert r == ExecStartKey + binPath;
    } else if Text.HasPrefix(line, WorkingDirectoryKey) {
      assert r == WorkingDirectoryKey + workDir;
    } else if Text.HasPrefix(line, ConditionKey) {
      assert r == ConditionKey + binPath;
    } else if Text.HasPrefix(line, DescriptionKey) {
      assert r == DescriptionKey + PackageName;
    }
  }

  /**
    The corrected install: the unit lands in /etc/systemd/system, and
    reading its lines back gives the template's lines, each rewritten, in
    their order.
   */
  lemma InstalledUnitReadsBack(template: seq<string>, workDir: string)
    requires |template| >= 1 && workDir != "" && '\n' !in workDir
    requires forall i :: 0 <= i < |template| ==> '\n' !in template[i]
    ensures InstalledUnit(template, workDir).path == "/etc/systemd/system/prolific.service"
    ensures Text.Split(InstalledUnit(template, workDir).content, '\n') == Rewritten(template, BinPath(workDir), workDir)
  {
    ServiceFilePathIsAbsolute();
    BinPathLayout(workDir);
    var binPath := BinPath(workDir);
    assert '\n' !in binPath;
    var lines := Rewritten(template, binPath, workDir);
    forall i | 0 <= i < |lines| ensures '\n' !in lines[i] {
      RewriteLineKeepsLineBreaksOut(template[i], binPath, workDir);
    }
    ServiceContentReadsBack(lines);
  }
}

=== FILE: log_endpoint.dfy ===
/**
  The read-only audit-log endpoint (features/log/github.go): an
  `Authorization: token <secret>` header unlocks the GitHub category.
 */
module LogEndpoint {
  import opened Wrappers
  import opened Handler
  import Text
  import Config
  import AuditLog

  /** `github.Log_Access_Token`. */
  function AccessToken(cfg: Config.Config): string {
    Config.Get(cfg, "github", "Log_Access_Token")
  }

  /**
    The first authorization check that fails, in the handler's order:
    presence, two space-separated parts, the "token" scheme, the token.
   */
  function AuthorizationError(header: string, cfg: Config.Config): Option<Error> {
    if header == "" then Some(Error(StatusUnauthorized, "No authorization provided."))
    else
      var parts := Text.Split(header, ' ');
      if |parts| != 2 then Some(Error(StatusUnauthorized, "Authorization format invalid."))
      else if Text.ToLower(parts[0]) != "token" then Some(Error(StatusUnauthorized, "Authorization type invalid."))
      else if parts[1] != AccessToken(cfg) then Some(Error(StatusUnauthorized, "Authorization token invalid."))
      else None
  }

  /** The reply for a request with this header, given the records stored now. */
  function LogReply(header: string, cfg: Config.Config, stored: seq<AuditLog.Log>): HttpReply {
    match AuthorizationError(header, cfg)
    case Some(e) => SendWithStatus(Failed(e.code, e.reason), StatusUnauthorized)
    case None => Send(ResponseBody(true, None, "", Records(stored)))
  }

  /** An accepted header is a space-free scheme spelling "token" in any case, one space, and the configured token. */
  lemma AcceptedHeaderShape(header: string, cfg: Config.Config)
    requires AuthorizationError(header, cfg) == None
    ensures var scheme := Text.Split(header, ' ')[0];
      && header == scheme + " " + AccessToken(cfg)
      && ' ' !in scheme && ' ' !in AccessToken(cfg)
      && Text.ToLower(scheme) == "token"
  {
    var parts := Text.Split(header, ' ');
    Text.JoinSplit(header, ' ');
    Text.JoinCons(parts, " ");
    assert parts[1..] == [parts[1]];
  }

  /** Conversely every such header is accepted. */
  lemma WellFormedHeaderAccepted(scheme: string, cfg: Config.Config)
    requires ' ' !in scheme && ' ' !in AccessToken(cfg)
    requires Text.ToLower(scheme) == "token"
    ensures AuthorizationError(scheme + " " + AccessToken(cfg), cfg) == None
  {
    var token := AccessToken(cfg);
    var parts := [scheme, token];
    Text.JoinCons(parts, " ");
    assert parts[1..] == [token];
    assert Text.Join(parts, " ") == scheme + " " + token;
    Text.SplitJoin(parts, ' ');
  }

  /** Every refusal is a 401 carrying code 401, and only an accepted request sees the records. */
  lemma RefusalsAreUnauthorized(header: string, cfg: Config.Config, stored: seq<AuditLog.Log>)
    ensures var reply := LogReply(header, cfg, stored);
      && reply.contentType == JsonContentType
      && (reply.status == StatusOK || reply.status == StatusUnauthorized)
      && (reply.status == StatusUnauthorized <==> AuthorizationError(header, cfg).Some?)
      && (reply.status == StatusUnauthorized ==> reply.body.error.Some? && reply.body.error.value.code == 401 && reply.body.data == NoData)
      && (reply.status == StatusOK ==> reply.body.success && reply.body.data == Records(stored))
  {
  }

  /**
    The checks run in order and the first that fails names the refusal:
    an empty header, then a header that is not two space-separated parts,
    then a scheme other than "token" in any case, then a wrong token. The
    refusal's reason is the one the reply carries.
   */
  lemma RefusalReasonsInOrder(header: string, cfg: Config.Config, stored: seq<AuditLog.Log>)
    ensures var parts := Text.Split(header, ' ');
      var e := AuthorizationError(header, cfg);
      && (header == "" ==> e == Some(Error(401, "No authorization provided.")))
      && (header != "" && |parts| != 2 ==> e == Some(Error(401, "Authorization format invalid.")))
      && (header != "" && |parts| == 2 && Text.ToLower(parts[0]) != "token" ==>
            e == Some(Error(401, "Authorization type invalid.")))
      && (header != "" && |parts| == 2 && Text.ToLower(parts[0]) == "token" && parts[1] != AccessToken(cfg) ==>
            e == Some(Error(401, "Authorization token invalid.")))
      && (e.Some? ==> LogReply(header, cfg, stored).body.error == e)
  {
  }

  /** With no `Log_Access_Token` configured, the header "token " with an empty token is accepted. */
  lemma UnsetTokenAcceptsEmptyToken(cfg: Config.Config)
    requires AccessToken(cfg) == ""
    ensures AuthorizationError("token ", cfg) == None
  {
    Text.SplitPiece("token", ' ', "");
    assert "token" + [' '] + "" == "token ";
    assert Text.ToLower("token") == "token";
  }

  /** `github` (log endpoint): check the header, then answer with every GitHub-category record. */
  method Github(header: string, cfg: Config.Config, store: AuditLog.LogStore) returns (reply: HttpReply)
    requires store.Valid()
    modifies store`dirExists
    ensures store.Valid() && store.files == old(store.files)
    ensures reply == LogReply(header, cfg, AuditLog.ReadFrom(old(store.files), AuditLog.GitHubLogType))
  {
    var response := new Response.Create();
    if header == "" {
      var statusCode := StatusUnauthorized;
      var _ := response.SetError(CreateError(statusCode, "No authorization provided."));
      return SendWithStatus(response.Body(), statusCode);
    }
    var authorization := Text.Split(header, ' ');
    if |authorization| != 2 {
      var statusCode := StatusUnauthorized;
      var _ := response.SetError(CreateError(statusCode, "Authorization format invalid."));
      return SendWithStatus(response.Body(), statusCode);
    }
    if Text.ToLower(authorization[0]) != "token" {
      var statusCode := StatusUnauthorized;
      var _ := response.SetError(CreateError(statusCode, "Authorization type invalid."));
      return SendWithStatus(response.Body(), statusCode);
    }
    var secret := Config.Get(cfg, "github", "Log_Access_Token");
    if authorization[1] != secret {
      var statusCode := StatusUnauthorized;
      var _ := response.SetError(CreateError(statusCode, "Authorization token invalid."));
      return SendWithStatus(response.Body(), statusCode);
    }
    var logs := store.ReadLogs(AuditLog.GitHubLogType);
    response.data := Records(logs);
    reply := Send(response.Body());
  }
}

=== FILE: payload.dfy ===
/** The parts of a GitHub pull-request webhook payload the deployer reads (features/web-hook/github.go). */
module Payload {

  datatype PullRequest = PullRequest(baseRef: string, merged: bool, number: int)

  datatype Repository = Repository(name: string, ownerLogin: string)

  datatype WebHookPayload = WebHookPayload(action: string, pullRequest: PullRequest, repository: Repository)

  function Owner(p: WebHookPayload): string { p.repository.ownerLogin }

  function RepositoryName(p: WebHookPayload): string { p.repository.name }

  function Branch(p: WebHookPayload): string { p.pullRequest.baseRef }
}

=== FILE: review.dfy ===
/**
  Posting a review comment on the pull request
  (features/web-hook/create_github_review.go). Building the request is
  modelled; marshalling, URL parsing, sending and reading the reply are
  fields of `Net`.
 */
module Review {
  import opened Wrappers
  import Text
  import Config
  import Comments
  import AuditLog
  import opened Payload

  const GitHubApiBaseUrl: string := "https://api.github.com"
  const ClientTimeoutSeconds: nat := 15

  /** The JSON body of a create-review call. */
  datatype ReviewPayload = ReviewPayload(event: string, body: string)

  datatype ReviewRequest = ReviewRequest(
    httpMethod: string,
    url: string,
    body: string,
    headers: seq<(string, string)>,
    timeoutSeconds: nat)

  /** What came back: nothing (construction or transport failed), or a response whose body was read or not. */
  datatype Delivery = NotDelivered(reason: string) | Delivered(body: Result<string>)

  datatype Net = Net(
    marshal: ReviewPayload -> Result<string>,      // json.Marshal
    urlAccepted: string -> bool,                   // http.NewRequest parses the URL
    send: ReviewRequest -> Delivery,               // http.Client.Do, then ioutil.ReadAll of the body
    decode: string -> Option<AuditLog.ApiObject>)  // json.Unmarshal into a map

  /** `POST /repos/{owner}/{repo}/pulls/{number}/reviews` on the GitHub API. */
  function ReviewUrl(owner: string, repository: string, number: int): (url: string)
    ensures Text.HasPrefix(url, GitHubApiBaseUrl + "/repos/")
  {
    GitHubApiBaseUrl + "/repos/" + owner + "/" + repository + "/pulls/" + Text.IntToDecimal(number) + "/reviews"
  }

  /** For one repository, the URL names the pull request: different numbers give different URLs. */
  lemma ReviewUrlInjective(owner: string, repository: string, n1: int, n2: int)
    requires ReviewUrl(owner, repository, n1) == ReviewUrl(owner, repository, n2)
    ensures n1 == n2
  {
    var prefix := GitHubApiBaseUrl + "/repos/" + owner + "/" + repository + "/pulls/";
    var d1, d2 := Text.IntToDecimal(n1), Text.IntToDecimal(n2);
    var u1, u2 := ReviewUrl(owner, repository, n1), ReviewUrl(owner, repository, n2);
    assert u1 == prefix + d1 + "/reviews";
    assert u2 == prefix + d2 + "/reviews";
    assert |d1| == |d2|;
    assert d1 == u1[|prefix|..|prefix| + |d1|];
    assert d2 == u2[|prefix|..|prefix| + |d2|];
    Text.IntToDecimalInjective(n1, n2);
  }

  /** The review body: always a plain COMMENT carrying the templated text. */
  function ReviewPayloadFor(comment: string, cfg: Config.Config): (r: ReviewPayload)
    ensures r.event == "COMMENT"
    ensures r.body == Comments.CreateComment(comment, cfg)
    ensures Comments.CommentText(r.body, cfg) == comment
  {
    Comments.CommentRoundTrip(comment, cfg);
    ReviewPayload("COMMENT", Comments.CreateComment(comment, cfg))
  }

  /**
    The request `createGitHubReview` sends, or the marshal or
    request-construction error it returns instead.
   */
  function BuildReview(p: WebHookPayload, comment: string, cfg: Config.Config, net: Net): Result<ReviewRequest>
  {
    var url := ReviewUrl(Owner(p), RepositoryName(p), p.pullRequest.number);
    var token := Config.Get(cfg, "github", "Personal_Access_Token");
    match net.marshal(ReviewPayloadFor(comment, cfg))
    case Failure(e) => Failure(e)
    case Success(body) =>
      if !net.urlAccepted(url) then Failure("invalid review URL " + url)
      else Success(ReviewRequest("POST", url, body,
                                 [("Accept", "application/vnd.github.v3+json"), ("Authorization", "Token " + token)],
                                 ClientTimeoutSeconds))
  }

  /**
    A marshal error is passed through; otherwise the request is built
    exactly when the URL is accepted, and it is a POST of the marshalled
    review to that URL with the two GitHub headers and a 15-second timeout.
   */
  lemma BuildReviewShape(p: WebHookPayload, comment: string, cfg: Config.Config, net: Net)
    ensures net.marshal(ReviewPayloadFor(comment, cfg)).Failure? ==>
              BuildReview(p, comment, cfg, net) == Failure(net.marshal(ReviewPayloadFor(comment, cfg)).error)
    ensures BuildReview(p, comment, cfg, net).Success? <==>
              net.marshal(ReviewPayloadFor(comment, cfg)).Success? &&
              net.urlAccepted(ReviewUrl(Owner(p), RepositoryName(p), p.pullRequest.number))
    ensures BuildReview(p, comment, cfg, net).Success? ==>
              && BuildReview(p, comment, cfg, net).value.httpMethod == "POST"
              && BuildReview(p, comment, cfg, net).value.url == ReviewUrl(Owner(p), RepositoryName(p), p.pullRequest.number)
              && BuildReview(p, comment, cfg, net).value.body == net.marshal(ReviewPayloadFor(comment, cfg)).value
              && BuildReview(p, comment, cfg, net).value.headers == [("Accept", "application/vnd.github.v3+json"),
                                     ("Authorization", "Token " + Config.Get(cfg, "github", "Personal_Access_Token"))]
              && BuildReview(p, comment, cfg, net).value.timeoutSeconds == 15
  {
  }

  /** `createGitHubReview`: build the request and, only when that worked, send it. */
  function CreateGitHubReview(p: WebHookPayload, comment: string, cfg: Config.Config, net: Net): (d: Delivery)
    ensures BuildReview(p, comment, cfg, net).Failure? ==>
              d == NotDelivered(BuildReview(p, comment, cfg, net).error)
    ensures BuildReview(p, comment, cfg, net).Success? ==> d == net.send(BuildReview(p, comment, cfg, net).value)
  {
    match BuildReview(p, comment, cfg, net)
    case Failure(e) => NotDelivered(e)
    case Success(request) => net.send(request)
  }

  /** The response object a delivery contributes to the audit record: only a read and decoded body does. */
  function Recorded(d: Delivery, net: Net): (r: Option<AuditLog.ApiObject>)
    ensures r.Some? ==> d.Delivered? && d.body.Success? && net.decode(d.body.value) == r
    ensures d.Delivered? && d.body.Success? ==> r == net.decode(d.body.value)
    ensures !(d.Delivered? && d.body.Success?) ==> r.None?
  {
    if d.Delivered? && d.body.Success? then net.decode(d.body.value) else None
  }
}

=== FILE: text.dfy ===
/**
  The parts of Go's `strings`, `fmt` and `encoding/hex` packages that the
  deployer relies on: splitting on a one-character separator, joining,
  prefix tests, ASCII case mapping, `%d` rendering and lower-case hex.
 */
module Text {
  import opened Wrappers

  type Byte = x: int | 0 <= x < 256

  /** `strings.HasPrefix(s, p)`. */
  predicate HasPrefix(s: string, p: string) {
    |p| <= |s| && s[..|p|] == p
  }

  /** `strings.Split(s, string(sep))`: the pieces between occurrences of `sep`. */
  function Split(s: string, sep: char): (parts: seq<string>)
    ensures |parts| >= 1
    ensures forall i :: 0 <= i < |parts| ==> sep !in parts[i]
  {
    if |s| == 0 then [""]
    else
      var rest := Split(s[1..], sep);
      if s[0] == sep then [""] + rest
      else [[s[0]] + rest[0]] + rest[1..]
  }

  /** `strings.Join(parts, sep)`. */
  function Join(parts: seq<string>, sep: string): string {
    if |parts| == 0 then ""
    else if |parts| == 1 then parts[0]
    else parts[0] + sep + Join(parts[1..], sep)
  }

  /** `fmt.Sprintf` with only `%s` and `%d` verbs: the literal pieces and the rendered arguments, in order. */
  function Concat(pieces: seq<string>): string {
    Join(pieces, "")
  }

  lemma JoinCons(parts: seq<string>, sep: string)
    requires |parts| >= 2
    ensures Join(parts, sep) == parts[0] + sep + Join(parts[1..], sep)
  {
  }

  /** A `%s`-only format renders its first piece, then the rest. */
  lemma ConcatHead(pieces: seq<string>)
    requires |pieces| >= 1
    ensures Concat(pieces) == pieces[0] + Concat(pieces[1..])
  {
    if |pieces| >= 2 {
      JoinCons(pieces, "");
    }
  }

  /** Joining the pieces of a split with the separator gives back the string. */
  lemma {:induction false} JoinSplit(s: string, sep: char)
    ensures Join(Split(s, sep), [sep]) == s
  {
    if |s| > 0 {
      var rest := Split(s[1..], sep);
      JoinSplit(s[1..], sep);
      if s[0] == sep {
        assert Split(s, sep) == [""] + rest;
        assert ([""] + rest)[1..] == rest;
        assert Join([""] + rest, [sep]) == "" + [sep] + Join(rest, [sep]);
        assert [s[0]] + s[1..] == s;
      } else {
        var parts := [[s[0]] + rest[0]] + rest[1..];
        assert Split(s, sep) == parts;
        if |rest| == 1 {
          assert Join(parts, [sep]) == [s[0]] + rest[0];
          assert [s[0]] + s[1..] == s;
        } else {
          assert parts[1..] == rest[1..];
          JoinCons(rest, [sep]);
          assert Join(parts, [sep]) == [s[0]] + rest[0] + [sep] + Join(rest[1..], [sep]);
          assert [s[0]] + s[1..] == s;
        }
      }
    }
  }

  /** A piece without the separator, followed by the separator, splits off as one piece. */
  lemma {:induction false} SplitPiece(a: string, sep: char, t: string)
    requires sep !in a
    ensures Split(a + [sep] + t, sep) == [a] + Split(t, sep)
  {
    if |a| == 0 {
      assert a + [sep] + t == [sep] + t;
      assert ([sep] + t)[1..] == t;
    } else {
      SplitPiece(a[1..], sep, t);
      assert (a + [sep] + t)[1..] == a[1..] + [sep] + t;
      assert [a[0]] + a[1..] == a;
    }
  }

  /** A string without the separator splits into itself alone. */
  lemma {:induction false} SplitWhole(a: string, sep: char)
    requires sep !in a
    ensures Split(a, sep) == [a]
  {
    if |a| > 0 {
      SplitWhole(a[1..], sep);
      assert [a[0]] + a[1..] == a;
    }
  }

  /** Splitting a join of separator-free pieces gives back the pieces. */
  lemma {:induction false} SplitJoin(parts: seq<string>, sep: char)
    requires |parts| >= 1
    requires forall i :: 0 <= i < |parts| ==> sep !in parts[i]
    ensures Split(Join(parts, [sep]), sep) == parts
  {
    if |parts| == 1 {
      SplitWhole(parts[0], sep);
    } else {
      SplitJoin(parts[1..], sep);
      SplitPiece(parts[0], sep, Join(parts[1..], [sep]));
      assert [parts[0]] + parts[1..] == parts;
    }
  }

  /** ASCII upper-casing of one character. */
  function UpperChar(c: char): char {
    if 'a' <= c <= 'z' then (c as int - 32) as char else c
  }

  /** ASCII lower-casing of one character. */
  function LowerChar(c: char): char {
    if 'A' <= c <= 'Z' then (c as int + 32) as char else c
  }

  /** `strings.ToUpper`, restricted to ASCII letters. */
  function ToUpper(s: string): (r: string)
    ensures |r| == |s|
  {
    seq(|s|, i requires 0 <= i < |s| => UpperChar(s[i]))
  }

  /** `strings.ToLower`, restricted to ASCII letters. */
  function ToLower(s: string): (r: string)
    ensures |r| == |s|
  {
    seq(|s|, i requires 0 <= i < |s| => LowerChar(s[i]))
  }

  predicate IsDigit(c: char) {
    '0' <= c <= '9'
  }

  function DigitChar(d: nat): (c: char)
    requires d < 10
    ensures IsDigit(c)
  {
    ('0' as int + d) as char
  }

  /** Decimal digits of a natural number, without leading zeros. */
  function NatToDecimal(n: nat): (s: string)
    ensures |s| >= 1
    ensures forall i :: 0 <= i < |s| ==> IsDigit(s[i])
  {
    if n < 10 then [DigitChar(n)] else NatToDecimal(n / 10) + [DigitChar(n % 10)]
  }

  /** `fmt.Sprintf("%d", n)`. */
  function IntToDecimal(n: int): string {
    if n < 0 then "-" + NatToDecimal(-n) else NatToDecimal(n)
  }

  /** The value of a string of decimal digits. */
  function DecimalValue(s: string): nat
    requires forall i :: 0 <= i < |s| ==> IsDigit(s[i])
  {
    if |s| == 0 then 0
    else
      assert IsDigit(s[|s| - 1]);
      DecimalValue(s[..|s| - 1]) * 10 + (s[|s| - 1] as int - '0' as int)
  }

  /** Reading back the digits of `n` gives `n`. */
  lemma {:induction false} DecimalRoundTrip(n: nat)
    ensures DecimalValue(NatToDecimal(n)) == n
  {
    if n >= 10 {
      DecimalRoundTrip(n / 10);
      var s := NatToDecimal(n);
      assert s[..|s| - 1] == NatToDecimal(n / 10);
    }
  }

  /** A `%d` rendering starts with a minus sign exactly for negative numbers. */
  lemma DecimalSign(n: int)
    ensures |IntToDecimal(n)| >= 1
    ensures IntToDecimal(n)[0] == '-' <==> n < 0
  {
    if n >= 0 {
      assert IsDigit(NatToDecimal(n)[0]);
    }
  }

  /** Distinct integers render as distinct `%d` strings. */
  lemma IntToDecimalInjective(a: int, b: int)
    requires IntToDecimal(a) == IntToDecimal(b)
    ensures a == b
  {
    DecimalSign(a);
    DecimalSign(b);
    if a < 0 && b < 0 {
      var sa, sb := NatToDecimal(-a), NatToDecimal(-b);
      assert sa == ("-" + sa)[1..] == ("-" + sb)[1..] == sb;
      DecimalRoundTrip(-a);
      DecimalRoundTrip(-b);
    } else if a >= 0 && b >= 0 {
      DecimalRoundTrip(a);
      DecimalRoundTrip(b);
    }
  }

  /** The lower-case hex digit for a value below 16. */
  function HexDigit(d: nat): char
    requires d < 16
  {
    if d < 10 then ('0' as int + d) as char else ('a' as int + d - 10) as char
  }

  /** `hex.EncodeToString`: two lower-case hex digits per byte. */
  function HexEncode(b: seq<Byte>): (s: string)
    ensures |s| == 2 * |b|
  {
    if |b| == 0 then "" else [HexDigit(b[0] / 16), HexDigit(b[0] % 16)] + HexEncode(b[1..])
  }

  /** The value of a lower-case hex digit. */
  function HexValue(c: char): (v: Option<nat>)
    ensures v.Some? ==> v.value < 16
  {
    if '0' <= c <= '9' then Some(c as int - '0' as int)
    else if 'a' <= c <= 'f' then Some(c as int - 'a' as int + 10)
    else None
  }

  /** The byte whose high and low hex digits are `hi` and `lo`. */
  function ByteOf(hi: nat, lo: nat): (b: Byte)
    requires hi < 16 && lo < 16
    ensures b / 16 == hi && b % 16 == lo
  {
    hi * 16 + lo
  }

  /** The inverse of `HexEncode`: `None` on odd length or a non-lower-case-hex character. */
  function HexDecode(s: string): Option<seq<Byte>> {
    if |s| == 0 then Some([])
    else if |s| == 1 then None
    else if HexValue(s[0]).None? || HexValue(s[1]).None? || HexDecode(s[2..]).None? then None
    else Some([ByteOf(HexValue(s[0]).value, HexValue(s[1]).value)] + HexDecode(s[2..]).value)
  }

  lemma HexDigitValue(d: nat)
    requires d < 16
    ensures HexValue(HexDigit(d)) == Some(d)
  {
  }

  /** Decoding an encoding gives back the bytes. */
  lemma {:induction false} HexRoundTrip(b: seq<Byte>)
    ensures HexDecode(HexEncode(b)) == Some(b)
  {
    if |b| > 0 {
      var hi, lo := b[0] / 16, b[0] % 16;
      HexRoundTrip(b[1..]);
      HexDigitValue(hi);
      HexDigitValue(lo);
      var s := HexEncode(b);
      assert s[0] == HexDigit(hi) && s[1] == HexDigit(lo);
      assert s[2..] == HexEncode(b[1..]);
      assert ByteOf(hi, lo) == b[0];
      assert [b[0]] + b[1..] == b;
    }
  }

  /** A string that decodes is the encoding of what it decodes to: the encoding is canonical. */
  lemma {:induction false} HexCanonical(s: string, b: seq<Byte>)
    requires HexDecode(s) == Some(b)
    ensures HexEncode(b) == s
  {
    if |s| > 0 {
      var hi, lo := HexValue(s[0]).value, HexValue(s[1]).value;
      var rest := HexDecode(s[2..]).value;
      HexCanonical(s[2..], rest);
      assert b == [ByteOf(hi, lo)] + rest;
      assert b[1..] == rest;
      assert HexDigit(hi) == s[0] && HexDigit(lo) == s[1];
      assert HexEncode(b) == [HexDigit(hi), HexDigit(lo)] + HexEncode(rest);
      assert s == [s[0], s[1]] + s[2..];
    }
  }

  /** The non-empty elements, in order. */
  function NonEmpty(elems: seq<string>): (r: seq<string>)
    ensures forall i :: 0 <= i < |r| ==> r[i] != ""
  {
    if |elems| == 0 then []
    else (if elems[0] == "" then [] else [elems[0]]) + NonEmpty(elems[1..])
  }

  /** `filepath.Join`: the non-empty elements separated by `/` (the final `Clean` is not modelled). */
  function PathJoin(elems: seq<string>): string {
    Join(NonEmpty(elems), "/")
  }

  /** `filepath.Join` of four non-empty elements puts one `/` between each. */
  lemma PathJoinFour(a: string, b: string, c: string, d: string)
    requires a != "" && b != "" && c != "" && d != ""
    ensures PathJoin([a, b, c, d]) == a + "/" + b + "/" + c + "/" + d
  {
    var elems := [a, b, c, d];
    assert elems[1..] == [b, c, d] && elems[1..][1..] == [c, d] && elems[1..][1..][1..] == [d];
    assert NonEmpty([d]) == [d];
    assert NonEmpty([c, d]) == [c, d];
    assert NonEmpty([b, c, d]) == [b, c, d];
    assert NonEmpty(elems) == elems;
    JoinCons(elems, "/");
    JoinCons([b, c, d], "/");
    JoinCons([c, d], "/");
  }
}

=== FILE: watches.dfy ===
/**
  The allow-list gate (features/web-hook/watches.go): `watch.<key>` holds a
  `;`-separated list, and an element is watched when it equals one of the
  pieces exactly.
 */
module Watches {
  import Text
  import Config

  const BranchElementKey: string := "branches"
  const OwnerElementKey: string := "owners"
  const RepositoryElementKey: string := "repositories"

  /** The pieces of the configured list for `key`. */
  function Segments(cfg: Config.Config, key: string): seq<string> {
    Text.Split(Config.Get(cfg, "watch", key), ';')
  }

  /** Exact, case-sensitive membership among the pieces. */
  predicate Watched(cfg: Config.Config, key: string, element: string) {
    element in Segments(cfg, key)
  }

  /** `isWatched`: scan the pieces in order and stop at the first equal one. */
  method IsWatched(element: string, key: string, cfg: Config.Config) returns (watched: bool)
    ensures watched <==> Watched(cfg, key, element)
  {
    var pieces := Text.Split(Config.Get(cfg, "watch", key), ';');
    var i := 0;
    while i < |pieces|
      invariant 0 <= i <= |pieces|
      invariant element !in pieces[..i]
    {
      if pieces[i] == element {
        return true;
      }
      i := i + 1;
    }
    assert pieces[..i] == pieces;
    return false;
  }

  /** An element containing `;` is never watched. */
  lemma SemicolonNeverWatched(cfg: Config.Config, key: string, element: string)
    requires ';' in element
    ensures !Watched(cfg, key, element)
  {
  }

  /** An empty (or missing) list still splits into one empty piece, so the empty string, and only it, is watched. */
  lemma EmptyListWatchesEmptyString(cfg: Config.Config, key: string, element: string)
    requires Config.Get(cfg, "watch", key) == ""
    ensures Watched(cfg, key, element) <==> element == ""
  {
  }

  /**
    A list written as the pieces `names` joined by `;` watches exactly those
    names, so the answer depends neither on their order nor on repeats.
   */
  lemma WatchedIsListMembership(cfg: Config.Config, key: string, names: seq<string>, element: string)
    requires |names| >= 1
    requires forall i :: 0 <= i < |names| ==> ';' !in names[i]
    requires Config.Get(cfg, "watch", key) == Text.Join(names, ";")
    ensures Watched(cfg, key, element) <==> element in names
  {
    Text.SplitJoin(names, ';');
  }

  /** Two lists naming the same set of names watch the same elements. */
  lemma OrderAndRepeatsIrrelevant(cfg1: Config.Config, cfg2: Config.Config, key: string,
                                  names1: seq<string>, names2: seq<string>, element: string)
    requires |names1| >= 1 && |names2| >= 1
    requires forall i :: 0 <= i < |names1| ==> ';' !in names1[i]
    requires forall i :: 0 <= i < |names2| ==> ';' !in names2[i]
    requires Config.Get(cfg1, "watch", key) == Text.Join(names1, ";")
    requires Config.Get(cfg2, "watch", key) == Text.Join(names2, ";")
    requires forall n :: n in names1 <==> n in names2
    ensures Watched(cfg1, key, element) <==> Watched(cfg2, key, element)
  {
    WatchedIsListMembership(cfg1, key, names1, element);
    WatchedIsListMembership(cfg2, key, names2, element);
  }
}

=== FILE: webhook.dfy ===
/**
  The webhook endpoint (features/web-hook/github.go): authenticate the
  delivery by its HMAC-SHA1 signature, parse it, check the watch lists,
  acknowledge, and hand merged pull requests on to processing, which
  comments on the pull request, deploys, comments again and appends one
  audit record.
 */
module WebHook {
  import opened Wrappers
  import Text
  import Config
  import opened Handler
  import opened Payload
  import Watches
  import Review
  import Deployer
  import AuditLog
  import Exec

  /** What the handler sees of a request: the `X-Hub-Signature` header and the body, or the error reading it. */
  datatype WebHookRequest = WebHookRequest(signature: string, body: Result<seq<Text.Byte>>)

  /** The reply, and the payload handed on to processing when the event is actionable. */
  datatype Ingress = Ingress(reply: HttpReply, dispatched: Option<WebHookPayload>)

  /** `github.WebHook_Secret`. */
  function WebHookSecret(cfg: Config.Config): string {
    Config.Get(cfg, "github", "WebHook_Secret")
  }

  /** The signature the body must carry: "sha1=" and the lower-case hex HMAC-SHA1 of the body under the secret. */
  function BodySignature(secret: string, body: seq<Text.Byte>, hmacSha1: (string, seq<Text.Byte>) -> seq<Text.Byte>): string {
    "sha1=" + Text.HexEncode(hmacSha1(secret, body))
  }

  /**
    The header matches exactly when it is "sha1=" followed by a lower-case
    hex string that decodes to the digest: upper-case hex, a missing prefix
    or any other spelling is refused.
   */
  lemma SignatureMatchIff(header: string, secret: string, body: seq<Text.Byte>,
                          hmacSha1: (string, seq<Text.Byte>) -> seq<Text.Byte>)
    ensures header == BodySignature(secret, body, hmacSha1) <==>
              Text.HasPrefix(header, "sha1=") && Text.HexDecode(header[5..]) == Some(hmacSha1(secret, body))
  {
    var digest := hmacSha1(secret, body);
    var expected := BodySignature(secret, body, hmacSha1);
    assert expected[5..] == Text.HexEncode(digest);
    if header == expected {
      Text.HexRoundTrip(digest);
    }
    if Text.HasPrefix(header, "sha1=") && Text.HexDecode(header[5..]) == Some(digest) {
      Text.HexCanonical(header[5..], digest);
      assert header == header[..5] + header[5..];
    }
  }

  function Rejection(code: int, reason: string, status: int): Ingress {
    Ingress(SendWithStatus(Failed(code, reason), status), None)
  }

  /** The handler's decision: the first failing check answers; an event passing all of them is dispatched. */
  function Decide(req: WebHookRequest, cfg: Config.Config,
                  hmacSha1: (string, seq<Text.Byte>) -> seq<Text.Byte>,
                  parse: seq<Text.Byte> -> Option<WebHookPayload>): Ingress
  {
    if req.signature == "" then Rejection(StatusBadRequest, "No signature provided.", StatusBadRequest)
    else if req.body.Failure? then Rejection(StatusInternalServerError, "Failed to read payload.", StatusInternalServerError)
    else if req.signature != BodySignature(WebHookSecret(cfg), req.body.value, hmacSha1) then
      Rejection(StatusBadRequest, "Invalid signature provided.", StatusBadRequest)
    else match parse(req.body.value)
      case None => Rejection(StatusInternalServerError, "Failed to parse payload.", StatusInternalServerError)
      case Some(p) =>
        if !Watches.Watched(cfg, Watches.OwnerElementKey, Owner(p)) then
          Rejection(1001, "Owner " + Owner(p) + " is not being watched.", StatusOK)
        else if !Watches.Watched(cfg, Watches.RepositoryElementKey, RepositoryName(p)) then
          Rejection(1002, "Repository " + RepositoryName(p) + " is not being watched.", StatusOK)
        else if !Watches.Watched(cfg, Watches.BranchElementKey, Branch(p)) then
          Rejection(1003, "Branch " + Branch(p) + " is not being watched.", StatusOK)
        else Ingress(Send(ResponseBody(true, None, "Event recorded.", NoData)), Some(p))
  }

  /** Every check passed. */
  predicate Actionable(req: WebHookRequest, cfg: Config.Config,
                       hmacSha1: (string, seq<Text.Byte>) -> seq<Text.Byte>,
                       parse: seq<Text.Byte> -> Option<WebHookPayload>)
  {
    && req.signature != ""
    && req.body.Success?
    && req.signature == BodySignature(WebHookSecret(cfg), req.body.value, hmacSha1)
    && parse(req.body.value).Some?
    && var p := parse(req.body.value).value;
       Watches.Watched(cfg, Watches.OwnerElementKey, Owner(p))
       && Watches.Watched(cfg, Watches.RepositoryElementKey, RepositoryName(p))
       && Watches.Watched(cfg, Watches.BranchElementKey, Branch(p))
  }

  /** Processing starts exactly when every check passes, and then the reply is 200 "Event recorded.". */
  lemma DispatchIffActionable(req: WebHookRequest, cfg: Config.Config,
                              hmacSha1: (string, seq<Text.Byte>) -> seq<Text.Byte>,
                              parse: seq<Text.Byte> -> Option<WebHookPayload>)
    ensures var out := Decide(req, cfg, hmacSha1, parse);
      && (out.dispatched.Some? <==> Actionable(req, cfg, hmacSha1, parse))
      && (out.dispatched.Some? ==>
            && out.dispatched == parse(req.body.value)
            && out.reply == HttpReply(StatusOK, JsonContentType, ResponseBody(true, None, "Event recorded.", NoData)))
      && (out.dispatched.None? ==> !out.reply.body.success && out.reply.body.error.Some?)
  {
  }

  /** Without a signature the answer is 400 "No signature provided.", whatever the body, configuration or parser. */
  lemma MissingSignatureStopsFirst(req: WebHookRequest, cfg: Config.Config,
                                   hmacSha1: (string, seq<Text.Byte>) -> seq<Text.Byte>,
                                   parse: seq<Text.Byte> -> Option<WebHookPayload>)
    requires req.signature == ""
    ensures Decide(req, cfg, hmacSha1, parse) == Rejection(400, "No signature provided.", 400)
  {
  }

  /** A readable body whose signature does not match is refused with 400 before it is parsed. */
  lemma BadSignatureNeverParsed(req: WebHookRequest, cfg: Config.Config,
                                hmacSha1: (string, seq<Text.Byte>) -> seq<Text.Byte>,
                                parse1: seq<Text.Byte> -> Option<WebHookPayload>,
                                parse2: seq<Text.Byte> -> Option<WebHookPayload>)
    requires req.signature != "" && req.body.Success?
    requires req.signature != BodySignature(WebHookSecret(cfg), req.body.value, hmacSha1)
    ensures Decide(req, cfg, hmacSha1, parse1) == Decide(req, cfg, hmacSha1, parse2)
    ensures Decide(req, cfg, hmacSha1, parse1) == Rejection(400, "Invalid signature provided.", 400)
  {
  }

  /**
    For an authentic, parsed event the watch lists are consulted owner
    first, then repository, then branch; the first miss answers 200 with
    its code and names the rejected value.
   */
  lemma WatchChecksInOrder(req: WebHookRequest, cfg: Config.Config,
                           hmacSha1: (string, seq<Text.Byte>) -> seq<Text.Byte>,
                           parse: seq<Text.Byte> -> Option<WebHookPayload>)
    requires req.signature != "" && req.body.Success?
    requires req.signature == BodySignature(WebHookSecret(cfg), req.body.value, hmacSha1)
    requires parse(req.body.value).Some?
    ensures var p := parse(req.body.value).value;
      var out := Decide(req, cfg, hmacSha1, parse);
      && (!Watches.Watched(cfg, Watches.OwnerElementKey, Owner(p)) ==>
            out == Rejection(1001, "Owner " + Owner(p) + " is not being watched.", 200))
      && (Watches.Watched(cfg, Watches.OwnerElementKey, Owner(p))
          && !Watches.Watched(cfg, Watches.RepositoryElementKey, RepositoryName(p)) ==>
            out == Rejection(1002, "Repository " + RepositoryName(p) + " is not being watched.", 200))
      && (Watches.Watched(cfg, Watches.OwnerElementKey, Owner(p))
          && Watches.Watched(cfg, Watches.RepositoryElementKey, RepositoryName(p))
          && !Watches.Watched(cfg, Watches.BranchElementKey, Branch(p)) ==>
            out == Rejection(1003, "Branch " + Branch(p) + " is not being watched.", 200))
  {
  }

  /**
    Once a signature is present, a body that cannot be read is answered
    500 "Failed to read payload." before the signature is checked, and an
    authentic body that does not parse is answered 500 "Failed to parse
    payload." before any watch list is consulted.
   */
  lemma BodyFailuresInOrder(req: WebHookRequest, cfg: Config.Config,
                            hmacSha1: (string, seq<Text.Byte>) -> seq<Text.Byte>,
                            parse: seq<Text.Byte> -> Option<WebHookPayload>)
    requires req.signature != ""
    ensures req.body.Failure? ==>
              Decide(req, cfg, hmacSha1, parse) == Rejection(500, "Failed to read payload.", 500)
    ensures req.body.Success? && req.signature == BodySignature(WebHookSecret(cfg), req.body.value, hmacSha1)
            && parse(req.body.value).None? ==>
              Decide(req, cfg, hmacSha1, parse) == Rejection(500, "Failed to parse payload.", 500)
  {
  }

  /** Authentication failures are 400, body failures 500, and every other answer is 200. */
  lemma StatusClasses(req: WebHookRequest, cfg: Config.Config,
                      hmacSha1: (string, seq<Text.Byte>) -> seq<Text.Byte>,
                      parse: seq<Text.Byte> -> Option<WebHookPayload>)
    ensures var out := Decide(req, cfg, hmacSha1, parse);
      && out.reply.contentType == JsonContentType
      && (out.reply.status == 400 <==>
            req.signature == "" || (req.body.Success? && req.signature != BodySignature(WebHookSecret(cfg), req.body.value, hmacSha1)))
      && (out.reply.status == 500 <==>
            req.signature != "" &&
            (req.body.Failure? ||
             (req.signature == BodySignature(WebHookSecret(cfg), req.body.value, hmacSha1) && parse(req.body.value).None?)))
      && (out.reply.status == 400 || out.reply.status == 500 || out.reply.status == 200)
  {
  }

  /** `github` (webhook endpoint): the chain of checks, each answering through the shared response object. */
  method Github(req: WebHookRequest, cfg: Config.Config,
                hmacSha1: (string, seq<Text.Byte>) -> seq<Text.Byte>,
                parse: seq<Text.Byte> -> Option<WebHookPayload>)
    returns (reply: HttpReply, dispatched: Option<WebHookPayload>)
    ensures Ingress(reply, dispatched) == Decide(req, cfg, hmacSha1, parse)
  {
    var response := new Response.Create();
    dispatched := None;
    if req.signature == "" {
      var statusCode := StatusBadRequest;
      var _ := response.SetError(CreateError(statusCode, "No signature provided."));
      return SendWithStatus(response.Body(), statusCode), None;
    }
    if req.body.Failure? {
      var statusCode := StatusInternalServerError;
      var _ := response.SetError(CreateError(statusCode, "Failed to read payload."));
      return SendWithStatus(response.Body(), statusCode), None;
    }
    var webHookBody := req.body.value;
    var bodySignature := "sha1=" + Text.HexEncode(hmacSha1(Config.Get(cfg, "github", "WebHook_Secret"), webHookBody));
    if req.signature != bodySignature {
      var statusCode := StatusBadRequest;
      var _ := response.SetError(CreateError(statusCode, "Invalid signature provided."));
      return SendWithStatus(response.Body(), statusCode), None;
    }
    var parsed := parse(webHookBody);
    if parsed.None? {
      var statusCode := StatusInternalServerError;
      var _ := response.SetError(CreateError(statusCode, "Failed to parse payload."));
      return SendWithStatus(response.Body(), statusCode), None;
    }
    var webHookPayload := parsed.value;
    var owner, repository, branch := Owner(webHookPayload), RepositoryName(webHookPayload), Branch(webHookPayload);
    var watched := Watches.IsWatched(owner, Watches.OwnerElementKey, cfg);
    if !watched {
      var _ := response.SetError(CreateError(1001, "Owner " + owner + " is not being watched."));
      return SendWithStatus(response.Body(), StatusOK), None;
    }
    watched := Watches.IsWatched(repository, Watches.RepositoryElementKey, cfg);
    if !watched {
      var _ := response.SetError(CreateError(1002, "Repository " + repository + " is not being watched."));
      return SendWithStatus(response.Body(), StatusOK), None;
    }
    watched := Watches.IsWatched(branch, Watches.BranchElementKey, cfg);
    if !watched {
      var _ := response.SetError(CreateError(1003, "Branch " + branch + " is not being watched."));
      return SendWithStatus(response.Body(), StatusOK), None;
    }
    dispatched := Some(webHookPayload);
    response.message := "Event recorded.";
    reply := Send(response.Body());
  }

  // ---------------------------------------------------------------------
  // Processing a dispatched event
  // ---------------------------------------------------------------------

  /** The formatted start, end and elapsed time of the deployment. */
  datatype Clock = Clock(startedAt: string, endedAt: string, elapsed: string)

  /** A deployment runs only for a merged pull request whose action upper-cases to "CLOSED". */
  predicate Triggers(p: WebHookPayload) {
    Text.ToUpper(p.action) == "CLOSED" && p.pullRequest.merged
  }

  /** The Hide_Error_Reason setting of the github section, "true" unless configured otherwise. */
  predicate HideErrorReason(cfg: Config.Config) {
    Config.GetWithDefault(cfg, "github", "Hide_Error_Reason", "true") == "true"
  }

  // The fixed wording of the notices.
  const LinkSite: string := "](https://github.com/"
  const StartLead: string := "This PR #"
  const StartApproved: string := " has been **approved to ["
  const StartStage: string := "] stage** of "
  const StartTail: string := "Prolific Deployment Tool will start the deployment process into the assigned server."
  const TableHeader: string := "| _Key_ | _Value_ |\n|---|---|\n"
  const StartTimeRow: string := "| Start Time | "
  const FinishTimeRow: string := "| Finish Time | "
  const ElapsedTimeRow: string := "| Elapsed Time | "
  const RowEnd: string := " |\n"
  const SuccessLead: string := "**SUCCESS**: ["
  const StageOf: string := "] stage of "
  const SuccessTail: string := " has been deployed. \n\n"
  const ErrorLead: string := "**ERROR**: ["
  const ErrorTail: string := " failed to be deployed. "
  const ManualReview: string := "Manual review on the assigned server might be required.\n\n"
  const ReasonLead: string := "Reason: `"
  const ReasonEnd: string := "`\n\n"

  /** `[owner/repository](https://github.com/owner/repository)`. */
  function RepoLink(p: WebHookPayload): string {
    Text.Concat(["[", Owner(p), "/", RepositoryName(p), LinkSite, Owner(p), "/", RepositoryName(p), ")"])
  }

  /** The notice posted before deploying. */
  function StartComment(p: WebHookPayload): string {
    Text.Concat([StartLead, Text.IntToDecimal(p.pullRequest.number), StartApproved, Branch(p), StartStage,
                 RepoLink(p), ".\n", StartTail])
  }

  /** The timing table that ends both result notices. */
  function TimingTable(clock: Clock): string {
    Text.Concat([TableHeader,
                 StartTimeRow, clock.startedAt, RowEnd,
                 FinishTimeRow, clock.endedAt, RowEnd,
                 ElapsedTimeRow, clock.elapsed, RowEnd])
  }

  function SuccessComment(p: WebHookPayload, clock: Clock): string {
    Text.Concat([SuccessLead, Branch(p), StageOf, RepoLink(p), SuccessTail]) + TimingTable(clock)
  }

  function FailureHead(p: WebHookPayload): string {
    Text.Concat([ErrorLead, Branch(p), StageOf, RepoLink(p), ErrorTail, ManualReview])
  }

  /** The failure notice; the reason line appears only when reasons are not hidden. */
  function FailureComment(p: WebHookPayload, clock: Clock, hidden: bool, reason: string): string {
    FailureHead(p) + (if hidden then "" else ReasonLead + reason + ReasonEnd) + TimingTable(clock)
  }

  /** With reasons hidden the failure notice is the same whatever the error was. */
  lemma HiddenReasonNotRevealed(p: WebHookPayload, clock: Clock, reason1: string, reason2: string)
    ensures FailureComment(p, clock, true, reason1) == FailureComment(p, clock, true, reason2)
  {
  }

  /** With reasons shown the notice carries the reason line with the error, and different errors give different notices. */
  lemma ShownReasonRecoverable(p: WebHookPayload, clock: Clock, reason1: string, reason2: string)
    ensures var c := FailureComment(p, clock, false, reason1);
      var at := |FailureHead(p)|;
      c[at..at + |reason1| + 10] == "Reason: `" + reason1 + "`"
    ensures FailureComment(p, clock, false, reason1) == FailureComment(p, clock, false, reason2) ==> reason1 == reason2
  {
    var head, table := FailureHead(p), TimingTable(clock);
    var c1 := FailureComment(p, clock, false, reason1);
    var c2 := FailureComment(p, clock, false, reason2);
    assert c1 == head + ("Reason: `" + reason1 + "`\n\n") + table;
    assert c1[|head|..|head| + |reason1| + 10] == "Reason: `" + reason1 + "`";
    if c1 == c2 {
      assert |reason1| == |reason2|;
      assert reason1 == c1[|head| + 9..|head| + 9 + |reason1|];
      assert reason2 == c2[|head| + 9..|head| + 9 + |reason2|];
    }
  }

  /** The notice posted after deploying. */
  function ResultComment(p: WebHookPayload, cfg: Config.Config, clock: Clock, err: Option<string>): string {
    if err.None? then SuccessComment(p, clock) else FailureComment(p, clock, HideErrorReason(cfg), err.value)
  }

  /**
    For one repository and base branch the start notice names the pull
    request: notices for different pull-request numbers differ.
   */
  lemma StartCommentNamesPullRequest(p1: WebHookPayload, p2: WebHookPayload)
    requires Owner(p1) == Owner(p2) && RepositoryName(p1) == RepositoryName(p2) && Branch(p1) == Branch(p2)
    requires StartComment(p1) == StartComment(p2)
    ensures p1.pullRequest.number == p2.pullRequest.number
  {
    var d1, d2 := Text.IntToDecimal(p1.pullRequest.number), Text.IntToDecimal(p2.pullRequest.number);
    var tail := [StartApproved, Branch(p1), StartStage, RepoLink(p1), ".\n", StartTail];
    var rest := Text.Concat(tail);
    assert RepoLink(p1) == RepoLink(p2);
    assert [StartLead, d1] + tail == [StartLead, d1, StartApproved, Branch(p1), StartStage, RepoLink(p1), ".\n", StartTail];
    assert [StartLead, d2] + tail == [StartLead, d2, StartApproved, Branch(p2), StartStage, RepoLink(p2), ".\n", StartTail];
    Text.ConcatHead([StartLead, d1] + tail);
    assert ([StartLead, d1] + tail)[1..] == [d1] + tail;
    Text.ConcatHead([d1] + tail);
    assert ([d1] + tail)[1..] == tail;
    Text.ConcatHead([StartLead, d2] + tail);
    assert ([StartLead, d2] + tail)[1..] == [d2] + tail;
    Text.ConcatHead([d2] + tail);
    assert ([d2] + tail)[1..] == tail;
    assert StartComment(p1) == StartLead + (d1 + rest);
    assert StartComment(p2) == StartLead + (d2 + rest);
    assert d1 + rest == (StartLead + (d1 + rest))[|StartLead|..];
    assert d2 + rest == (StartLead + (d2 + rest))[|StartLead|..];
    assert |d1| == |d2|;
    assert d1 == (d1 + rest)[..|d1|];
    assert d2 == (d2 + rest)[..|d2|];
    Text.IntToDecimalInjective(p1.pullRequest.number, p2.pullRequest.number);
  }

  /**
    Both result notices end with the timing table, and they start
    differently: "**SUCCESS**: [" for a deployment without error,
    "**ERROR**: [" otherwise.
   */
  lemma ResultCommentShape(p: WebHookPayload, cfg: Config.Config, clock: Clock, err: Option<string>)
    ensures var c, t := ResultComment(p, cfg, clock, err), TimingTable(clock);
      && |t| <= |c| && c[|c| - |t|..] == t
      && (err.None? ==> Text.HasPrefix(c, SuccessLead))
      && (err.Some? ==> Text.HasPrefix(c, ErrorLead))
      && !(Text.HasPrefix(c, SuccessLead) && Text.HasPrefix(c, ErrorLead))
  {
    var c, t := ResultComment(p, cfg, clock, err), TimingTable(clock);
    if err.None? {
      var pieces := [SuccessLead, Branch(p), StageOf, RepoLink(p), SuccessTail];
      Text.ConcatHead(pieces);
      assert c == SuccessLead + Text.Concat(pieces[1..]) + t;
      assert c[2] == 'S' && ErrorLead[2] == 'E';
    } else {
      var pieces := [ErrorLead, Branch(p), StageOf, RepoLink(p), ErrorTail, ManualReview];
      Text.ConcatHead(pieces);
      var mid := if HideErrorReason(cfg) then "" else ReasonLead + err.value + ReasonEnd;
      assert c == ErrorLead + Text.Concat(pieces[1..]) + mid + t;
      assert c[2] == 'E' && SuccessLead[2] == 'S';
    }
  }

  function Present(o: Option<AuditLog.ApiObject>): seq<AuditLog.ApiObject> {
    if o.Some? then [o.value] else []
  }

  /**
    The responses the audit record evidently means to keep: each decoded
    review response once, in call order. The code as written records
    `ResponsesAsWritten` instead.
   */
  function RecordedResponses(first: Option<AuditLog.ApiObject>, second: Option<AuditLog.ApiObject>): (r: seq<AuditLog.ApiObject>)
    ensures |r| <= 2
    ensures |r| == (if first.Some? then 1 else 0) + (if second.Some? then 1 else 0)
    ensures first.Some? ==> r[0] == first.value
    ensures second.Some? ==> r[|r| - 1] == second.value
  {
    Present(first) + Present(second)
  }

  /** What `deploy` returned for the payload's repository and branch. */
  function Deployment(p: WebHookPayload, cfg: Config.Config, host: Exec.Host): Deployer.DeployResult {
    Deployer.DeploySpec(Owner(p), RepositoryName(p), Branch(p), cfg, host)
  }

  /** The decoded reply to the notice posted before deploying, if there is one. */
  function StartReply(p: WebHookPayload, cfg: Config.Config, net: Review.Net): Option<AuditLog.ApiObject> {
    Review.Recorded(Review.CreateGitHubReview(p, StartComment(p), cfg, net), net)
  }

  /** The decoded reply to the notice posted after deploying, if there is one. */
  function ResultReply(p: WebHookPayload, cfg: Config.Config, net: Review.Net, clock: Clock, err: Option<string>): Option<AuditLog.ApiObject> {
    Review.Recorded(Review.CreateGitHubReview(p, ResultComment(p, cfg, clock, err), cfg, net), net)
  }

  /** The record of one run, from the payload, the clock, the two replies and what `deploy` returned. */
  function RunRecord(p: WebHookPayload, clock: Clock, first: Option<AuditLog.ApiObject>, d: Deployer.DeployResult,
                     second: Option<AuditLog.ApiObject>): AuditLog.Log
  {
    AuditLog.Log(d.err.None?, clock.startedAt, clock.endedAt, clock.elapsed, if d.err.Some? then d.err.value else "",
                 AuditLog.LogData(Owner(p), RepositoryName(p), Branch(p), ResponsesAsWritten(first, second), d.logs))
  }

  /** The audit record processing appends, if it appends one. */
  function AuditRecord(p: WebHookPayload, cfg: Config.Config, host: Exec.Host, net: Review.Net, clock: Clock): Option<AuditLog.Log> {
    if !Triggers(p) then None
    else
      var d := Deployment(p, cfg, host);
      Some(RunRecord(p, clock, StartReply(p, cfg, net), d, ResultReply(p, cfg, net, clock, d.err)))
  }

  /** A record is written exactly for merged pull requests that were closed. */
  lemma AuditRecordOnlyOnMerge(p: WebHookPayload, cfg: Config.Config, host: Exec.Host, net: Review.Net, clock: Clock)
    ensures AuditRecord(p, cfg, host, net, clock).Some? <==> Triggers(p)
  {
  }

  /** The record describes the deployment that ran: its outcome, its error, its commands and its timing. */
  lemma AuditRecordDescribesRun(p: WebHookPayload, cfg: Config.Config, host: Exec.Host, net: Review.Net, clock: Clock,
                                log: AuditLog.Log)
    requires AuditRecord(p, cfg, host, net, clock) == Some(log)
    ensures var d := Deployment(p, cfg, host);
      && log.data.owner == Owner(p) && log.data.repository == RepositoryName(p) && log.data.branch == Branch(p)
      && (log.success <==> d.err.None?)
      && log.data.executableLogs == d.logs
      && (log.success ==> log.error == "")
      && (!log.success ==> log.error == d.err.value)
      && |log.data.gitHubApiResponses| <= 2
      && log.startedAt == clock.startedAt && log.endedAt == clock.endedAt && log.timeElapsed == clock.elapsed
  {
    var d := Deployment(p, cfg, host);
    assert log == RunRecord(p, clock, StartReply(p, cfg, net), d, ResultReply(p, cfg, net, clock, d.err));
  }

  /**
    The record keeps the decoded answers to the start and result notices as
    the code leaves them: a lone answer is kept as it is, but when both
    notices are answered both entries are the one shared map, holding the
    keys of either answer with the second answer's values winning.
   */
  lemma ResponsesComeFromDecodedReviews(p: WebHookPayload, cfg: Config.Config, host: Exec.Host, net: Review.Net, clock: Clock,
                                        log: AuditLog.Log)
    requires AuditRecord(p, cfg, host, net, clock) == Some(log)
    ensures var first := StartReply(p, cfg, net);
      var second := ResultReply(p, cfg, net, clock, Deployment(p, cfg, host).err);
      var responses := log.data.gitHubApiResponses;
      && |responses| == (if first.Some? then 1 else 0) + (if second.Some? then 1 else 0)
      && (first.Some? && second.None? ==> responses == [first.value])
      && (first.None? && second.Some? ==> responses == [second.value])
      && (first.Some? && second.Some? ==>
            && responses[0] == responses[1]
            && responses[0].Keys == first.value.Keys + second.value.Keys
            && (forall k :: k in second.value ==> responses[0][k] == second.value[k])
            && (forall k :: k in first.value && k !in second.value ==> responses[0][k] == first.value[k]))
  {
    var d := Deployment(p, cfg, host);
    var first, second := StartReply(p, cfg, net), ResultReply(p, cfg, net, clock, d.err);
    assert log == RunRecord(p, clock, first, d, second);
  }

  /** The notice `processGitHub` composes once the deployment has ended. */
  method ResultNotice(p: WebHookPayload, cfg: Config.Config, clock: Clock, err: Option<string>) returns (comment: string)
    ensures comment == ResultComment(p, cfg, clock, err)
  {
    if err.None? {
      comment := SuccessComment(p, clock);
    } else {
      var hideErrorReason := Config.GetWithDefault(cfg, "github", "Hide_Error_Reason", "true") == "true";
      comment := FailureComment(p, clock, hideErrorReason, err.value);
    }
  }

  /**
    One review round trip as `processGitHub` performs it: post the comment,
    read the reply and decode it; any failure on the way records nothing.
   */
  method ReviewResponse(p: WebHookPayload, comment: string, cfg: Config.Config, net: Review.Net)
    returns (response: Option<AuditLog.ApiObject>)
    ensures response == Review.Recorded(Review.CreateGitHubReview(p, comment, cfg, net), net)
  {
    response := None;
    var r := Review.CreateGitHubReview(p, comment, cfg, net);
    if r.NotDelivered? {
      return;
    }
    if r.body.Failure? {
      return;
    }
    var gitHubApiResponse := net.decode(r.body.value);
    if gitHubApiResponse.Some? {
      response := gitHubApiResponse;
    }
  }

  /**
    The body of `processGitHub` for a merged pull request: post the start
    notice, deploy, post the result notice, and assemble the record. The
    response slice is read back from the shared map after the second
    review, which is what the log file receives.
   */
  method DeployAndReport(p: WebHookPayload, cfg: Config.Config, host: Exec.Host, net: Review.Net, clock: Clock)
    returns (log: AuditLog.Log)
    requires Triggers(p)
    ensures AuditRecord(p, cfg, host, net, clock) == Some(log)
  {
    var owner, repository, branch := Owner(p), RepositoryName(p), Branch(p);
    var comment := StartComment(p);
    var first := ReviewResponse(p, comment, cfg, net);

    var executableLogs, err := Deployer.Deploy(owner, repository, branch, cfg, host);
    comment := ResultNotice(p, cfg, clock, err);
    var error := if err.Some? then err.value else "";

    var second := ReviewResponse(p, comment, cfg, net);
    var responses := AppendResponsesAsWritten(first, second);

    log := AuditLog.Log(err.None?, clock.startedAt, clock.endedAt, clock.elapsed, error,
                        AuditLog.LogData(owner, repository, branch, responses, executableLogs));
    assert log == RunRecord(p, clock, first, Deployer.DeployResult(executableLogs, err), second);
  }

  /**
    `processGitHub`, run to completion: a merged pull request is deployed
    and its record appended to the GitHub log; any other event changes
    nothing. `outcome` is how the host's rewrite of the log file ends.
   */
  method ProcessGitHub(p: WebHookPayload, cfg: Config.Config, host: Exec.Host, net: Review.Net, clock: Clock,
                       store: AuditLog.LogStore, outcome: AuditLog.WriteOutcome)
    requires store.Valid()
    modifies store
    ensures store.Valid()
    ensures store.files == match AuditRecord(p, cfg, host, net, clock)
      case Some(log) => AuditLog.AfterWrite(old(store.files), AuditLog.GitHubLogType, log, outcome)
      case None => old(store.files)
    ensures AuditRecord(p, cfg, host, net, clock).None? ==> store.dirExists == old(store.dirExists)
  {
    if Text.ToUpper(p.action) == "CLOSED" && p.pullRequest.merged {
      var log := DeployAndReport(p, cfg, host, net, clock);
      store.WriteLog(AuditLog.GitHubLogType, log, outcome);
    }
  }

  // ---------------------------------------------------------------------
  // The response map as the code shares it
  // ---------------------------------------------------------------------

  /** The Go map both `json.Unmarshal` calls decode into; the slice of responses holds references to it. */
  class DecodedMap {
    var entries: AuditLog.ApiObject

    constructor ()
      ensures entries == map[]
    {
      entries := map[];
    }
  }

  /**
    What lines 69-89 and 133-148 record as written: one map variable
    receives both decodes, Unmarshal into a non-nil map keeps its entries
    and adds the new ones, and both slice elements are that same map.
   */
  function ResponsesAsWritten(first: Option<AuditLog.ApiObject>, second: Option<AuditLog.ApiObject>): (r: seq<AuditLog.ApiObject>)
    ensures |r| == (if first.Some? then 1 else 0) + (if second.Some? then 1 else 0)
    ensures first.Some? && second.None? ==> r == [first.value]
    ensures first.None? && second.Some? ==> r == [second.value]
    ensures first.Some? && second.Some? ==>
              && r[0] == r[1]
              && r[0].Keys == first.value.Keys + second.value.Keys
              && (forall k :: k in second.value ==> r[0][k] == second.value[k])
              && (forall k :: k in first.value && k !in second.value ==> r[0][k] == first.value[k])
  {
    match (first, second)
    case (Some(a), Some(b)) => [a + b, a + b]
    case (Some(a), None) => [a]
    case (None, Some(b)) => [b]
    case (None, None) => []
  }

  /**
    The sharing itself: the code appends a reference to the one decoded map
    after each successful decode, so every element is the same map holding
    everything decoded so far.
   */
  method AppendResponsesAsWritten(first: Option<AuditLog.ApiObject>, second: Option<AuditLog.ApiObject>)
    returns (recorded: seq<AuditLog.ApiObject>)
    ensures recorded == ResponsesAsWritten(first, second)
  {
    var responses := ShareDecodedMap(first, second);
    recorded := ReadEntries(responses);
  }

  /** Both decodes go into one map object, and the slice receives a reference to it after each. */
  method ShareDecodedMap(first: Option<AuditLog.ApiObject>, second: Option<AuditLog.ApiObject>)
    returns (responses: seq<DecodedMap>)
    ensures |responses| == |ResponsesAsWritten(first, second)|
    ensures forall j :: 0 <= j < |responses| ==> responses[j].entries == ResponsesAsWritten(first, second)[j]
  {
    var gitHubApiResponse: DecodedMap? := null;
    responses := [];
    if first.Some? {
      gitHubApiResponse := new DecodedMap();
      gitHubApiResponse.entries := gitHubApiResponse.entries + first.value;
      assert gitHubApiResponse.entries == first.value;
      responses := responses + [gitHubApiResponse];
    }
    assert first.Some? ==> responses == [gitHubApiResponse];
    assert first.None? ==> responses == [] && gitHubApiResponse == null;
    if second.Some? {
      if gitHubApiResponse == null {
        gitHubApiResponse := new DecodedMap();
      }
      gitHubApiResponse.entries := gitHubApiResponse.entries + second.value;
      responses := responses + [gitHubApiResponse];
    }
  }

  /** Encoding the log reads each element of the slice as it is at that moment. */
  method ReadEntries(responses: seq<DecodedMap>) returns (recorded: seq<AuditLog.ApiObject>)
    ensures |recorded| == |responses|
    ensures forall j :: 0 <= j < |responses| ==> recorded[j] == responses[j].entries
  {
    recorded := [];
    for i := 0 to |responses|
      invariant |recorded| == i
      invariant forall j :: 0 <= j < i ==> recorded[j] == responses[j].entries
    {
      recorded := recorded + [responses[i].entries];
    }
  }

  /**
    The record as written matches the intended one exactly when at most one
    review was answered or both answers were equal.
   */
  lemma {:induction false} AsWrittenMatchesIntended(first: Option<AuditLog.ApiObject>, second: Option<AuditLog.ApiObject>)
    ensures ResponsesAsWritten(first, second) == RecordedResponses(first, second) <==>
              first.None? || second.None? || first.value == second.value
  {
    if first.Some? && second.Some? {
      var a, b := first.value, second.value;
      if a == b {
        assert a + b == a;
        assert ResponsesAsWritten(first, second) == [a, b];
      }
      if ResponsesAsWritten(first, second) == RecordedResponses(first, second) {
        assert [a + b, a + b] == [a, b];
        assert a + b == a && a + b == b;
      }
    }
  }

  /** When both reviews answer, the code records the second answer (merged over the first) twice. */
  lemma FirstResponseLost()
    ensures var a, b := map["id" := "1"], map["id" := "2"];
      && ResponsesAsWritten(Some(a), Some(b)) == [b, b]
      && RecordedResponses(Some(a), Some(b)) == [a, b]
  {
    var a, b := map["id" := "1"], map["id" := "2"];
    assert a + b == b;
  }
}

=== FILE: wrappers.dfy ===
/** Optional values and Go-style (value, error) results. */
module Wrappers {

  datatype Option<+T> = None | Some(value: T)

  /** A Go `(T, error)` pair: either a value or the error's message. */
  datatype Result<+T> = Success(value: T) | Failure(error: string)
}
